=== FILE: README.md ===
# Luxury real-estate site: catalogue, admin store and session, in Dafny

This project models the behavioural core of a React real-estate site and
proves properties of that model. It covers:

- **The catalogue query** of the listings page (`PropertiesPage.tsx`). This
  is the chain of location, category, price, bedroom, bathroom and
  free-text filters over the listings, followed by the sort the visitor
  picked. The sort is an in-place sort of an array. The page also builds
  the location selector, updates one filter at a time, and looks a
  listing up by its id when one of its cards is clicked.
- **The admin listing store** (`admin.tsx`). It holds the listings table
  and its `{total, featured}` counters. Pushed records are upserted by
  `_id`, and new contact messages are prepended. The "add listing" form
  caps its images at five, maps its radio button to a status, and builds
  the multipart payload it submits. The panel's tabs and submission status
  are modelled too.
- **The session controller** (`App.tsx`). It holds the current page, the
  selected listing, the favourites list (a toggle) and the application
  modal. It also has the rule that an empty detail page falls back to the
  catalogue. A listing card (`PropertyCard.tsx`) hands its click handler
  the listing's id, not the listing. Only the catalogue page turns that id
  back into a listing, so the selection is modelled as either a listing or
  a bare id.
- **The detail page** (`PropertyDetailPage.tsx`). It has the "similar
  listings" strip, the favourite marker, and the gallery's main image with
  its thumbnail highlight.
- **The home page** (`HomePage.tsx`). It has the featured strip, the
  rotating testimonial and the animated statistics counter.

Layout, one module per file:

| file | module | models |
|---|---|---|
| `optional.dfy` | `Optional` | `Option` |
| `seqs.dfy` | `Seqs` | order-preserving `filter`, `slice(0, n)`, and lemmas about them |
| `text.dfy` | `Text` | ASCII `toLowerCase`, `includes`, decimal `parseInt` |
| `listing.dfy` | `Listing` | the record types of `types.ts` |
| `catalog.dfy` | `Catalog` | the catalogue query and location selector |
| `admin.dfy` | `Admin` | the admin store, the listing form and the panel state (`class Panel`) |
| `session.dfy` | `Session` | the favourites toggle and the session controller (`class App`) |
| `detail.dfy` | `Detail` | the detail page and its gallery (`class Gallery`) |
| `home.dfy` | `Home` | the home page, the testimonial carousel and the counter |

Some members are pure expressions in the source: the filter chain, the
slices and the toggle. They are functions with lemmas.

The push-event upsert (`admin.tsx:83-97`) is not pure in the source. Inside
the state updater it copies the table, then assigns one slot of the copy or
`unshift`s onto it, and it also calls `setStats`. The copy is private to the
updater, so the model states the new table as the function `Upsert` on
sequences. `Panel.HandlePropertyUpdate` then reassigns both the table and
the counters.

Other members update state step by step. These are classes whose methods
name what they modify: React state fields, the sorted array, the tick of a
timer. Each such method is tied to a function that states its result, and the
properties are proved about that function:

- the sort is proved against sortedness and the multiset of the input;
- the payload loop against `Payload`;
- a counter tick against `Step`.

Input and output are parameters:

- fetch responses become `PropertiesResponse`, `ContactsResponse` and
  `SubmitResponse` values;
- socket events become method calls;
- timers become `Tick` methods.

## Model

| member | source | states |
|---|---|---|
| Text.ToLower | components/pages/PropertiesPage.tsx:39 | Lower-casing keeps the length and maps each character on its own: A–Z go to a–z and everything else is unchanged. |
| Text.ToLowerIdempotent | components/pages/PropertiesPage.tsx:39 | Lower-casing an already lower-cased string changes nothing, so the search term and the fields are compared in one case. |
| Text.Contains | components/pages/PropertiesPage.tsx:39 | `includes` holds exactly when the needle occurs at some position of the haystack. |
| Text.ContainsEmpty | components/pages/PropertiesPage.tsx:39 | Every string includes the empty string. |
| Text.ParseInt | components/pages/PropertiesPage.tsx:37-50 | (Used at lines 37-38 and 50.) `parseInt` gives a number iff the string starts with a digit, or with a sign followed by a digit. A leading '-' gives a number at most 0, anything else a number at least 0. |
| Text.ParseIntOfDecimal | components/pages/PropertiesPage.tsx:37-38 | `parseInt` of a number's decimal digits, followed by anything not starting with a digit, gives that number back. |
| Listing.TypeNameInjective | types.ts:10 | Distinct categories have distinct names, so comparing names compares categories. |
| Catalog.TypeOptionsCoverEveryType | components/pages/PropertiesPage.tsx:30 | The category selector offers every category after 'All'. |
| Catalog.MeetsMinimum | components/pages/PropertiesPage.tsx:37-38 | 'Any' keeps every listing. A selection that `parseInt` reads as NaN keeps none, because every comparison with NaN is false. |
| Catalog.SearchOk | components/pages/PropertiesPage.tsx:39 | The search keeps a listing iff the lower-cased term occurs in the lower-cased title or in the lower-cased location. |
| Catalog.SearchIgnoresCase | components/pages/PropertiesPage.tsx:39 | Lower-casing the term, or the listing's title and location, never changes the outcome of the search. |
| Catalog.SearchSeesOnlyLowerCase | components/pages/PropertiesPage.tsx:39 | Two terms with the same lower-cased form, searched over listings whose titles and locations have the same lower-cased forms, give the same outcome (for the ASCII case mapping of `Text.ToLower`). |
| Catalog.Matches | components/pages/PropertiesPage.tsx:34-39 | A listing that passes the six filters is within the price cap, and is in the chosen location and category unless that filter is 'All'. |
| Catalog.RoomOptionsAreMinimums | components/pages/PropertiesPage.tsx:37-38 | The i-th room option after 'Any' ('1' to '4', then '5+', as offered at lines 109 and 115) keeps exactly the listings with at least i rooms. |
| Catalog.TypeOptionSelectsOneCategory | components/pages/PropertiesPage.tsx:30-35 | Each category option after 'All' keeps exactly the listings of one category, the one it names. |
| Catalog.HandleFilterChange | components/pages/PropertiesPage.tsx:25-27 | The named filter takes the new value and every other filter keeps its old one. |
| Catalog.Narrow | components/pages/PropertiesPage.tsx:32-39 | The filter chain never lengthens the list. |
| Catalog.NarrowSound | components/pages/PropertiesPage.tsx:32-39 | Every listing the chain keeps comes from the input and passes all six filters. |
| Catalog.NarrowCount | components/pages/PropertiesPage.tsx:32-39 | A listing that passes all six filters is kept exactly as often as the input holds it. Any other listing is dropped. |
| Catalog.EmptySearchMatchesAll | components/pages/PropertiesPage.tsx:23 | The initial empty search term matches every listing. |
| Catalog.DefaultsMatchOnPriceOnly | components/pages/PropertiesPage.tsx:15-23 | Under the initial filters a listing is shown iff its price is at most 100,000,000. |
| Catalog.DefaultsKeepAffordable | components/pages/PropertiesPage.tsx:15-39 | With the initial filters, the filter chain keeps a catalogue priced within the cap whole and in catalogue order, before the sort is applied (the initial sort mode, 'Newest First', then reorders it by id key). |
| Catalog.FivePlusMeansAtLeastFive | components/pages/PropertiesPage.tsx:109 | The '5+' option (through `parseInt`) keeps exactly the listings with at least five rooms. |
| Catalog.NumberOptionMeansAtLeast | components/pages/PropertiesPage.tsx:115 | The options '1' to '4' keep exactly the listings with at least that many rooms. |
| Catalog.IdKey | components/pages/PropertiesPage.tsx:50 | The recency key of an id with a numeric suffix is the `parseInt` of the id after its first character. |
| Catalog.SortByKey | components/pages/PropertiesPage.tsx:41-52 | The in-place sort leaves the array ordered by the key and a permutation of its old contents. |
| Catalog.SortListings | components/pages/PropertiesPage.tsx:41-52 | Each sort mode orders the array: price up, price down, or recency key down. An unknown mode leaves the array untouched. The contents are always a permutation of the old ones. |
| Catalog.FilteredAndSorted | components/pages/PropertiesPage.tsx:32-54 | The query returns exactly the matching listings, each as often as in the input, ordered by the sort mode. An unknown mode gives the unsorted filter chain. |
| Catalog.PermutationOfNarrowed | components/pages/PropertiesPage.tsx:32-54 | Any reordering of the filtered list is still sound and complete. |
| Catalog.Distinct | components/pages/PropertiesPage.tsx:29 | `[...new Set(s)]` holds the same values as `s`, each once. |
| Catalog.DistinctFirstAppearance | components/pages/PropertiesPage.tsx:29 | The distinct values appear in the order of their first appearance in `s`. |
| Catalog.Locations | components/pages/PropertiesPage.tsx:29 | The selector starts with 'All' and then lists each location of the catalogue once, and nothing else. |
| Catalog.LocationsInFirstAppearanceOrder | components/pages/PropertiesPage.tsx:29 | The selector's locations follow the catalogue's order of first appearance. |
| Catalog.FindById | components/pages/PropertiesPage.tsx:139 | `find` gives nothing iff no listing has the id. Otherwise it gives the first listing with that id. |
| Admin.CountFeatured | components/pages/admin.tsx:69 | The featured count never exceeds the number of listings. |
| Admin.StatsOf | components/pages/admin.tsx:67-71 | `total` is the list length and `featured` is at most `total`. |
| Admin.FindIndex | components/pages/admin.tsx:85 | `findIndex` gives -1 iff no record has the `_id`. Otherwise it gives the first record with it. |
| Admin.Upsert | components/pages/admin.tsx:83-90 | The table grows by at most one record and holds the pushed record. Every record with another `_id` stays, and nothing but the pushed record and old records appears. |
| Admin.UpsertReplacesInPlace | components/pages/admin.tsx:85-88 | A known `_id` replaces its first record in place: same length, same position, and every other record unchanged. |
| Admin.UpsertPrependsNew | components/pages/admin.tsx:89 | An unknown `_id` is prepended, which lengthens the list by one. |
| Admin.UpsertKeepsIdsUnique | components/pages/admin.tsx:83-97 | If the ids are unique before an upsert, they stay unique after it, and the new record is present. |
| Admin.UpsertIdempotent | components/pages/admin.tsx:83-97 | Applying the same pushed record twice gives the same table as applying it once. |
| Admin.CountFeaturedAppend | components/pages/admin.tsx:92 | The featured count of a concatenation is the sum of the parts' counts. |
| Admin.CountFeaturedAfterUpsert | components/pages/admin.tsx:91-94 | An upsert changes the featured count only by the new record and the record it replaces. |
| Admin.InitialFields | components/pages/admin.tsx:32-43 | The initial form names each field once and holds no 'images' text field. |
| Admin.InitialFieldListWellFormed | components/pages/admin.tsx:32-43 | The nine initial field names are pairwise distinct and none is 'images'. |
| Admin.Lookup | components/pages/admin.tsx:121 | Reading a form field gives nothing iff the field is absent. Otherwise it gives a value stored under that name. |
| Admin.SetField | components/pages/admin.tsx:110 | The changed field reads back the new value and every other field reads as before. |
| Admin.SetFieldKeepsKeysUnique | components/pages/admin.tsx:110 | A field change keeps the field names distinct and does not bring in other names. |
| Admin.ChosenImages | components/pages/admin.tsx:107 | At most five files are kept, as a prefix of the chosen ones. The choice is kept whole when it has five or fewer. |
| Admin.StatusFor | components/pages/admin.tsx:125 | The status sent is 'Featured' iff `is_featured` is 'yes'. Otherwise it is 'For Sale'. |
| Admin.FormDataSet | components/pages/admin.tsx:125 | `set` adds at most one entry, and the payload then holds the entry with that name and value. |
| Admin.FormDataSetEntries | components/pages/admin.tsx:125 | After `set`, the payload has exactly one entry under that name, holding the new value. Entries under other names are untouched. |
| Admin.Payload | components/pages/admin.tsx:119-127 | The payload holds at least one entry per chosen file. |
| Admin.PayloadEndsWithImages | components/pages/admin.tsx:119-127 | The payload ends with one 'images' entry per chosen file, in order, after all text entries. |
| Admin.BuildPayload | components/pages/admin.tsx:119-127 | The two loops build exactly `Payload`: the non-image fields in order, the status set, then the images. |
| Admin.TextEntriesNamed | components/pages/admin.tsx:120-122 | The field loop gives each non-image field exactly one entry, carrying its value. Absent fields get none. |
| Admin.ImageEntriesNamed | components/pages/admin.tsx:127 | The image loop adds only 'images' entries, one per file, in order. |
| Admin.TextEntriesNoImages | components/pages/admin.tsx:121 | The field loop never sends an 'images' entry. |
| Admin.PayloadStatus | components/pages/admin.tsx:125 | The payload carries exactly one 'status' entry, and it holds `StatusFor(fields)`. |
| Admin.PayloadField | components/pages/admin.tsx:120-125 | Every other text field is sent exactly once with its value. |
| Admin.PayloadImages | components/pages/admin.tsx:127 | The payload's 'images' entries are exactly the chosen files, in order. |
| Admin.Panel.constructor | components/pages/admin.tsx:24-43 | Initial state: empty tables, counters 0/0, loading, no error, no status, the listings tab, and the initial form. |
| Admin.Panel.PropertiesFetched | components/pages/admin.tsx:62-75 | A body replaces the table wholesale (an absent list counts as empty) and the counters follow. A failure keeps the table and records the error message. |
| Admin.Panel.ContactsFetched | components/pages/admin.tsx:45-53 | A body replaces the contacts (an absent list counts as empty). A failure changes nothing. |
| Admin.Panel.InitialLoadSettled | components/pages/admin.tsx:79 | Loading ends once both fetches settle, whatever their outcome. |
| Admin.Panel.HandleNewContact | components/pages/admin.tsx:56-58 | A pushed contact is put in front of the list. |
| Admin.Panel.HandlePropertyUpdate | components/pages/admin.tsx:83-100 | Both push events upsert the record, and the counters again describe the table. |
| Admin.Panel.SelectTab | components/pages/admin.tsx:164-172 | The clicked tab becomes active. |
| Admin.Panel.HandleFormChange | components/pages/admin.tsx:103-112 | A file choice replaces the images with at most five of them. Any other input overwrites only its own field. The form stays well formed. |
| Admin.Panel.HandleFormSubmit | components/pages/admin.tsx:115-127 | Submitting sets the status to submitting and sends `Payload(fields, images)`. |
| Admin.Panel.SubmitSettled | components/pages/admin.tsx:129-147 | Success sets the success status. A failure sets the error status and records the message. |
| Admin.Panel.SuccessTimerFired | components/pages/admin.tsx:140-143 | 1.5 s after success the listings tab is active again and the status is cleared. |
| Session.Toggle | App.tsx:24-30 | Toggling flips the membership of that id and of no other. |
| Session.ToggleRemovesEveryOccurrence | App.tsx:27 | Toggling a present id removes every copy of it and keeps every other id as often as before. |
| Session.ToggleKeepsOrder | App.tsx:27 | Removal keeps the other ids in their order. |
| Session.ToggleTwiceRestoresAbsent | App.tsx:24-30 | Toggling an absent id twice gives back the very same list. |
| Session.ToggleTwiceRestoresMembership | App.tsx:24-30 | Toggling any id twice gives back the same set of favourites. |
| Session.ToggleKeepsNoDuplicates | App.tsx:24-30 | A favourites list without repeats keeps none after a toggle. |
| Session.App.constructor | App.tsx:14-18 | The session starts on Home with nothing selected, no favourites, the given catalogue and the modal closed. |
| Session.App.ToggleFavorite | App.tsx:24-30 | The favourites become `Toggle(old, id)` and stay free of repeats. |
| Session.App.NavigateTo | App.tsx:32-35 | The page changes and the selection is cleared. |
| Session.CardClick | components/PropertyCard.tsx:33 | A card click calls its handler iff the listing's id is non-empty, and then passes that id. |
| Session.App.ViewPropertyDetails | App.tsx:37-40 | Whatever it is handed (a listing, or a bare id from a card) is stored as the selection, and the detail page is shown. |
| Session.App.ClickIdCard | components/pages/HomePage.tsx:82 | A featured or similar card with a non-empty id selects the bare id and shows the detail page. An empty id changes nothing. |
| Session.App.OpenListing | components/pages/PropertiesPage.tsx:138-141 | An id that `find` resolves selects that listing, which has the id and is in the catalogue, and shows the detail page. An unknown id changes nothing. Resolved selections stay resolved. |
| Session.App.ClickCatalogCard | components/pages/PropertiesPage.tsx:134-141 | A catalogue card of a listing with a non-empty id opens a listing with that id from the catalogue. A card with an empty id, or one `find` does not resolve, changes neither page nor selection. Resolved selections stay resolved. |
| Session.App.OpenApplyModal | App.tsx:79 | The apply button opens the modal. |
| Session.App.CloseApplyModal | App.tsx:87 | Closing the modal closes it. |
| Session.App.RenderPage | App.tsx:42-72 | Each page renders its view. A detail page with a falsy selection renders nothing and moves to the catalogue. The detail page crashes iff its selection is a bare id, since `"2".images[0]` throws. When every selection is a resolved listing, nothing crashes and the detail view shows that listing. |
| Session.FeaturedCardClickCrashes | components/pages/HomePage.tsx:82 | For any catalogue, clicking a featured card with a non-empty id on the home page crashes the detail page. |
| Session.SimilarCardClickCrashes | components/pages/PropertyDetailPage.tsx:145 | For any catalogue, a listing opened from the catalogue page renders its detail view, and then a click on any similar card with a non-empty id crashes the detail page. |
| Session.ResolvedCardClickShowsListing | components/pages/PropertiesPage.tsx:138-141 | When card ids are resolved through `find`, opening two listings in a row shows each one's detail view. The listing shown has the clicked id and comes from the catalogue. |
| Detail.SimilarProperties | components/pages/PropertyDetailPage.tsx:20-22 | At most three listings, all of the viewed listing's category with a different id, and never the listing itself. They are the first min(3, n) entries of the order-preserving filter. |
| Detail.SimilarTakesFirstThree | components/pages/PropertyDetailPage.tsx:20-22 | When the catalogue opens with three qualifying listings, exactly those three are shown. |
| Detail.IsFavorite | components/pages/PropertyDetailPage.tsx:18 | The listing is a favourite iff some entry of the favourites list equals its id. |
| Detail.ToggleFlipsMarker | components/pages/PropertyDetailPage.tsx:18 | The heart shows a favourite iff the id is listed, and pressing it flips the marker. |
| Detail.FirstImage | components/pages/PropertyDetailPage.tsx:17 | The initial main image is the first image, or nothing (`undefined`) when there is none. |
| Detail.Gallery.constructor | components/pages/PropertyDetailPage.tsx:17 | On mount the main image is the listing's first image. |
| Detail.Gallery.ClickThumbnail | components/pages/PropertyDetailPage.tsx:45-47 | From any state, even a stale one, a click shows that thumbnail's image and restores the gallery invariant. Exactly the thumbnails with that image are highlighted. |
| Detail.Gallery.ReceiveProps | components/pages/PropertyDetailPage.tsx:16-17 | New props change the listing but keep the main image (state survives a re-render). |
| Detail.Gallery.ShowProperty | components/pages/PropertyDetailPage.tsx:17 | A freshly mounted page shows the new listing's first image. |
| Detail.StaleMainImage | App.tsx:52-60 | For any two listings where the first's first image is not among the second's images, the page re-rendered with the second listing keeps the first's image as its main image, so that image does not belong to the listing shown. |
| Detail.ThumbnailClickRepairsStaleImage | components/pages/PropertyDetailPage.tsx:45-47 | After the page has kept a stale main image across new props, a click on any thumbnail of the listing shown makes the main image that thumbnail's image, which belongs to the listing. |
| Detail.FreshMainImage | components/pages/PropertyDetailPage.tsx:17 | For any two listings, with a remount per listing the main image is the new listing's first image. It belongs to that listing, or is absent only when the listing has no images. |
| Home.FeaturedProperties | components/pages/HomePage.tsx:50 | At most three listings, all 'Featured'. They are the first min(3, n) of the order-preserving filter. |
| Home.NoFeaturedShowsNothing | components/pages/HomePage.tsx:50 | With no featured listing the strip is empty. |
| Home.NextTestimonial | components/pages/HomePage.tsx:45 | The next index is below the number of testimonials. It is NaN (`None`) exactly when there are none or the index is already NaN. |
| Home.RotateAdvances | components/pages/HomePage.tsx:45 | After k ticks the index is (start + k) mod length. |
| Home.FullCycle | components/pages/HomePage.tsx:45 | After as many ticks as there are testimonials, the index is back at its start. |
| Home.Carousel.constructor | components/pages/HomePage.tsx:41 | The first testimonial is shown on mount. |
| Home.Carousel.Tick | components/pages/HomePage.tsx:44-46 | Each five-second tick applies `NextTestimonial`. |
| Home.Appear | components/pages/HomePage.tsx:19-22 | Becoming visible restarts `start` at 0 and keeps the display. The interval is set iff the target is not 0. |
| Home.Disappear | components/pages/HomePage.tsx:33 | Leaving the screen clears the interval and keeps the display. |
| Home.Step | components/pages/HomePage.tsx:26-31 | A tick raises `start` by one and displays it, and it stops exactly on the target. A cleared interval does nothing. |
| Home.StoppedStaysPut | components/pages/HomePage.tsx:29-31 | Once stopped, the counter never changes again. |
| Home.ZeroTargetStaysIdle | components/pages/HomePage.tsx:22 | With target 0 the counter never runs and the display never changes. |
| Home.CountsUpByOne | components/pages/HomePage.tsx:26-31 | Below the target, k ticks raise the display by exactly k. The interval is cleared exactly on reaching the target. |
| Home.StopsAtTarget | components/pages/HomePage.tsx:20-31 | With a positive target, the display reads k after k ≤ target ticks and reads the target forever after. |
| Home.StepsSplit | components/pages/HomePage.tsx:26-31 | m + n ticks are m ticks followed by n ticks. |
| Home.BoundedPreserved | components/pages/HomePage.tsx:18-33 | With a positive target, showing, hiding and ticking never push the display past the target. |
| Home.NegativeTargetNeverStops | components/pages/HomePage.tsx:26-31 | A negative target is never reached: the interval keeps firing and `start` keeps climbing. |
| Home.Counter.constructor | components/pages/HomePage.tsx:14 | The counter starts at 0, not running. |
| Home.Counter.BecomeVisible | components/pages/HomePage.tsx:18-22 | Becoming visible applies `Appear`. |
| Home.Counter.BecomeHidden | components/pages/HomePage.tsx:33 | Hiding applies `Disappear`. |
| Home.Counter.Tick | components/pages/HomePage.tsx:26-31 | A firing of the interval applies `Step`. |

## Left out

- Network I/O, sockets and timers. They are not modelled: fetch results, pushed events and timer firings are passed in as values or method calls.
- Scrolling to the top on page change (`App.tsx:20-22`) is a window effect and is not modelled.
- The admin panel's Excel downloads (`window.open`) and all rendering markup are not modelled.
- The `constants` module (the catalogue and the testimonials) is not part of this model. The catalogue is a parameter, and so is the number of testimonials.
- `ContactPage.tsx`, `ApplyNowModal.tsx`, `Header.tsx`, `Footer.tsx`, `AboutPage.tsx` and `useSocket.ts` are presentational or plumbing. Only the modal's open flag is modelled. Of `PropertyCard.tsx` only the click handler is modelled; its scroll-reveal animation and markup are not.
- Text.ToLower: only ASCII letters are lower-cased. JavaScript's Unicode case mapping is not modelled.
- Text.ParseInt: decimal digits with an optional sign. Leading whitespace, `0x` prefixes and the float-to-int path are left out. The model assumes its inputs (the room options and the listing ids, which are data) have neither whitespace nor a `0x` prefix.
- Catalog.FilteredAndSorted: under 'Newest First' it requires every matching listing to have a numeric id suffix. With a NaN key, JavaScript's comparator gives an implementation-defined order, which is not modelled.
- Catalog.SortListings: stability for equal keys is not stated (the insertion sort only swaps strictly greater keys, but this is not proved).
- Catalog.HandleFilterChange: the source accepts any filter name and value. The model takes the five known names, with a number only for the price.
- Coordinates are real numbers and are carried unchanged. Float prices and room counts are modelled as integers.
- Admin.Panel.HandleFormChange: assumes no text input is named 'images'. The form has none, and the source's submit would fail on one.
- Home.Counter: non-integer targets are not modelled. The target is an integer, and a negative one never stops, as shown.
- Home.Carousel: a testimonial count that changes while mounted is not modelled. The updater reads `TESTIMONIALS.length` on every tick, but `TESTIMONIALS` is an imported module constant (`HomePage.tsx:4`), so the count cannot change. The model takes it as a fixed parameter.
- Admin.Panel.HandlePropertyUpdate: both push events upsert, so an `updated` event for an unknown `_id` prepends the record. It is never ignored.
- Session.Toggle: toggling twice restores the exact list only for an id that was absent. A present id is removed with all its copies and re-added at the end, so only membership is restored (`Session.ToggleTwiceRestoresMembership`).
- The program has no cache and no delete event, so neither is modelled.
- `admin.tsx:9` does not parse as written: the socket hook's parameter list runs into a URL (`(eventName, handler,https://…`). The model reads that parameter list as `(eventName, handler)`.

## Findings

| source | as written | input that shows it | evidently intended | confidence | as-written member | corrected member |
|---|---|---|---|---|---|---|
| components/pages/HomePage.tsx:82 | A featured card passes `onViewDetails={onViewDetails}`, i.e. `viewPropertyDetails` from `App.tsx:45`. `PropertyCard.tsx:33` calls it with `property.id`, a string. `App.tsx:53` finds the string truthy, and `PropertyDetailPage.tsx:17` evaluates `property.images[0]` on a string, which throws a TypeError. | Home page, click the featured card of listing "2": the detail page crashes. | Resolve the id to its listing with `find`, as the catalogue page does (`PropertiesPage.tsx:138-141`), before selecting it. | high, not executed | Session.FeaturedCardClickCrashes | Session.ResolvedCardClickShowsListing |
| components/pages/PropertyDetailPage.tsx:145 | A similar listing's card passes `onViewDetails={onViewSimilar}`, which is `viewPropertyDetails` (`App.tsx:59`), so it too receives the bare id and the next render throws as above. | Open listing "1" from the catalogue page, then click its similar listing "2": the detail page crashes. | Resolve the id to its listing before selecting it. | high, not executed | Session.SimilarCardClickCrashes | Session.ResolvedCardClickShowsListing |
| components/pages/PropertyDetailPage.tsx:17 | `mainImage` is state initialised once. `App.tsx:54-59` renders the page without a `key`, so a change of listing keeps the old main image. This is latent: the only way to change listing while on the page is the similar card, which crashes first (row above). Once ids are resolved, it shows. | With ids resolved, view listing "1" (image a.jpg), then open similar listing "2" (image b.jpg): the large image stays a.jpg. | The main image restarts at the new listing's first image (a remount keyed by listing id). | medium, not executed; hidden behind the crash above | Detail.StaleMainImage | Detail.FreshMainImage |

=== FILE: admin.dfy ===
/** The administrative panel: the listing table fed by the initial fetch and
    by push events, the sidebar counters, the contact inbox, and the
    add-listing form with its multipart payload. */
module Admin {
  import opened Optional
  import opened Seqs

  /** A listing as the backend stores it. Only the database identifier and
      the status are inspected; every other field travels unexamined and is
      replaced wholesale. */
  datatype AdminListing = AdminListing(dbId: string, status: string, attributes: map<string, string>)

  /** A contact-form submission as the backend stores it. */
  datatype Contact = Contact(dbId: string, fullName: string, email: string, phone: string, message: string, date: string)

  /** The sidebar counters. */
  datatype Stats = Stats(total: nat, featured: nat)

  const FeaturedStatus: string := "Featured"
  const ForSaleStatus: string := "For Sale"
  const PropertiesFetchError: string := "Error fetching properties. Check Backend."

  // ---------------------------------------------------------------------------
  // The listing table and its counters

  function IsFeatured(p: AdminListing): bool {
    p.status == FeaturedStatus
  }

  /** `list.filter(p => p.status === 'Featured').length`. */
  function CountFeatured(s: seq<AdminListing>): (n: nat)
    ensures n <= |s|
  {
    |Filter(s, IsFeatured)|
  }

  /** The counters recomputed from a listing table. */
  function StatsOf(s: seq<AdminListing>): (r: Stats)
    ensures r.total == |s| && r.featured <= r.total
  {
    Stats(|s|, CountFeatured(s))
  }

  ghost predicate UniqueIds(s: seq<AdminListing>) {
    forall i, j :: 0 <= i < j < |s| ==> s[i].dbId != s[j].dbId
  }

  /** `findIndex(p => p._id === id)`: the first position holding `id`, or -1. */
  function FindIndex(s: seq<AdminListing>, id: string): (r: int)
    ensures -1 <= r < |s|
    ensures r == -1 <==> forall k :: 0 <= k < |s| ==> s[k].dbId != id
    ensures r >= 0 ==> s[r].dbId == id && forall k :: 0 <= k < r ==> s[k].dbId != id
  {
    if s == [] then -1
    else if s[0].dbId == id then 0
    else
      var r := FindIndex(s[1..], id);
      if r == -1 then -1 else r + 1
  }

  /** The push-event fold shared by "added" and "updated" events: replace the
      first entry with the same identifier, or prepend the record. */
  function Upsert(s: seq<AdminListing>, u: AdminListing): (r: seq<AdminListing>)
    ensures |r| == |s| || |r| == |s| + 1
    ensures u in r
    ensures forall k :: 0 <= k < |s| && s[k].dbId != u.dbId ==> s[k] in r
    ensures forall k :: 0 <= k < |r| ==> r[k] == u || r[k] in s
  {
    var index := FindIndex(s, u.dbId);
    if index != -1 then
      assert forall k :: 0 <= k < |s| && k != index ==> s[index := u][k] == s[k];
      assert s[index := u][index] == u;
      s[index := u]
    else
      [u] + s
  }

  /** A record whose identifier is present replaces the first entry holding
      it, at the same position; nothing else moves. */
  lemma UpsertReplacesInPlace(s: seq<AdminListing>, u: AdminListing, i: nat)
    requires i < |s| && s[i].dbId == u.dbId
    requires forall k :: 0 <= k < i ==> s[k].dbId != u.dbId
    ensures |Upsert(s, u)| == |s|
    ensures Upsert(s, u)[i] == u
    ensures forall k :: 0 <= k < |s| && k != i ==> Upsert(s, u)[k] == s[k]
  {
  }

  /** A record with a new identifier goes to the front and the table grows by one. */
  lemma UpsertPrependsNew(s: seq<AdminListing>, u: AdminListing)
    requires forall k :: 0 <= k < |s| ==> s[k].dbId != u.dbId
    ensures Upsert(s, u) == [u] + s
    ensures |Upsert(s, u)| == |s| + 1
  {
  }

  /** Since adds and updates share the fold, no event creates a second entry
      with an identifier the table already holds. */
  lemma UpsertKeepsIdsUnique(s: seq<AdminListing>, u: AdminListing)
    requires UniqueIds(s)
    ensures UniqueIds(Upsert(s, u))
    ensures exists i :: 0 <= i < |Upsert(s, u)| && Upsert(s, u)[i] == u
  {
    var index := FindIndex(s, u.dbId);
    if index == -1 {
      assert Upsert(s, u)[0] == u;
    } else {
      assert Upsert(s, u)[index] == u;
    }
  }

  /** Delivering the same event twice leaves the table as delivering it once. */
  lemma UpsertIdempotent(s: seq<AdminListing>, u: AdminListing)
    ensures Upsert(Upsert(s, u), u) == Upsert(s, u)
  {
    var index := FindIndex(s, u.dbId);
    var once := Upsert(s, u);
    if index == -1 {
      assert FindIndex(once, u.dbId) == 0;
    } else {
      assert once[index].dbId == u.dbId;
      assert forall k :: 0 <= k < index ==> once[k] == s[k];
      assert FindIndex(once, u.dbId) == index;
    }
  }

  lemma {:induction false} CountFeaturedAppend(a: seq<AdminListing>, b: seq<AdminListing>)
    ensures CountFeatured(a + b) == CountFeatured(a) + CountFeatured(b)
  {
    FilterAppend(a, b, IsFeatured);
  }

  /** The featured counter moves only by the fold's own entry: it gains one
      if the new record is featured and loses one if the replaced record was. */
  lemma CountFeaturedAfterUpsert(s: seq<AdminListing>, u: AdminListing)
    ensures var index := FindIndex(s, u.dbId);
      CountFeatured(Upsert(s, u)) + (if index != -1 && IsFeatured(s[index]) then 1 else 0)
      == CountFeatured(s) + (if IsFeatured(u) then 1 else 0)
  {
    var index := FindIndex(s, u.dbId);
    if index == -1 {
      CountFeaturedAppend([u], s);
    } else {
      var front, back := s[..index], s[index + 1..];
      assert s == front + [s[index]] + back;
      assert Upsert(s, u) == front + [u] + back;
      CountFeaturedAppend(front + [s[index]], back);
      CountFeaturedAppend(front, [s[index]]);
      CountFeaturedAppend(front + [u], back);
      CountFeaturedAppend(front, [u]);
    }
  }

  // ---------------------------------------------------------------------------
  // The add-listing form

  datatype File = File(name: string)

  /** What a multipart entry carries: text, or an uploaded file. */
  datatype FormValue = TextValue(text: string) | FileValue(file: File)

  type Entry = (string, FormValue)

  const MaxImages: nat := 5

  /** The form's text fields, in insertion order (the order `for...in` visits
      them); the chosen image files are held apart. */
  function InitialFields(): (r: seq<(string, string)>)
    ensures FormWellFormed(r)
  {
    InitialFieldListWellFormed();
    InitialFieldList
  }

  const InitialFieldList: seq<(string, string)> := [
    ("title", ""), ("location", ""), ("price", ""), ("type", "Apartment"), ("description", ""),
    ("bedrooms", ""), ("bathrooms", ""), ("area", ""), ("is_featured", "no")]

  ghost predicate UniqueKeys(fields: seq<(string, string)>) {
    forall i, j :: 0 <= i < j < |fields| ==> fields[i].0 != fields[j].0
  }

  /** A field name's length and first character; the initial names differ in one or the other. */
  function Signature(key: string): (int, char) {
    (|key|, if key == [] then ' ' else key[0])
  }

  ghost predicate FormWellFormed(fields: seq<(string, string)>) {
    UniqueKeys(fields) && Lookup(fields, "images").None?
  }

  /** The initial form names each field once and holds no "images" text field. */
  lemma InitialFieldListWellFormed()
    ensures FormWellFormed(InitialFieldList)
  {
    var sigs := seq(|InitialFieldList|, i requires 0 <= i < |InitialFieldList| => Signature(InitialFieldList[i].0));
    assert sigs == [(5, 't'), (8, 'l'), (5, 'p'), (4, 't'), (11, 'd'), (8, 'b'), (9, 'b'), (4, 'a'), (11, 'i')];
    forall i, j | 0 <= i < j < |InitialFieldList| ensures InitialFieldList[i].0 != InitialFieldList[j].0 {
      assert sigs[i] != sigs[j];
    }
    forall i | 0 <= i < |InitialFieldList| ensures InitialFieldList[i].0 != "images" {
      assert sigs[i].0 != 6;
    }
  }

  function Lookup(fields: seq<(string, string)>, key: string): (r: Option<string>)
    ensures r.None? <==> forall i :: 0 <= i < |fields| ==> fields[i].0 != key
    ensures r.Some? ==> (key, r.value) in fields
  {
    if fields == [] then None
    else if fields[0].0 == key then Some(fields[0].1)
    else Lookup(fields[1..], key)
  }

  /** `{ ...prev, [name]: value }`: overwrite the field, or append it when new. */
  function SetField(fields: seq<(string, string)>, key: string, value: string): (r: seq<(string, string)>)
    ensures Lookup(r, key) == Some(value)
    ensures forall other :: other != key ==> Lookup(r, other) == Lookup(fields, other)
  {
    if fields == [] then [(key, value)]
    else if fields[0].0 == key then [(key, value)] + fields[1..]
    else [fields[0]] + SetField(fields[1..], key, value)
  }

  /** Overwriting or appending a field never duplicates a field name. */
  lemma {:induction false} SetFieldKeepsKeysUnique(fields: seq<(string, string)>, key: string, value: string)
    requires UniqueKeys(fields)
    ensures UniqueKeys(SetField(fields, key, value))
    ensures forall i :: 0 <= i < |SetField(fields, key, value)| ==>
      SetField(fields, key, value)[i].0 == key || Lookup(fields, SetField(fields, key, value)[i].0).Some?
  {
    var r := SetField(fields, key, value);
    if fields != [] && fields[0].0 != key {
      SetFieldKeepsKeysUnique(fields[1..], key, value);
      var rest := SetField(fields[1..], key, value);
      assert r == [fields[0]] + rest;
      forall j | 0 <= j < |rest| ensures rest[j].0 != fields[0].0 {
        if rest[j].0 != key {
          var v := Lookup(fields[1..], rest[j].0).value;
          assert (rest[j].0, v) in fields[1..];
        }
      }
    } else if fields == [] {
    } else {
      assert forall j :: 1 <= j < |r| ==> r[j] == fields[j];
    }
  }

  /** `Array.from(files).slice(0, 5)`: at most five files, the first ones, in order. */
  function ChosenImages(files: seq<File>): (r: seq<File>)
    ensures |r| <= MaxImages && |r| <= |files|
    ensures r == files[..|r|]
    ensures |files| <= MaxImages ==> r == files
  {
    Take(files, MaxImages)
  }

  /** The radio button mapped to the backend's status field. */
  function StatusFor(fields: seq<(string, string)>): (r: string)
    ensures r == FeaturedStatus <==> Lookup(fields, "is_featured") == Some("yes")
    ensures r == FeaturedStatus || r == ForSaleStatus
  {
    if Lookup(fields, "is_featured") == Some("yes") then FeaturedStatus else ForSaleStatus
  }

  function Named(name: string): Entry -> bool {
    (e: Entry) => e.0 == name
  }

  function NotNamed(name: string): Entry -> bool {
    (e: Entry) => e.0 != name
  }

  /** The entries of a multipart payload that carry `name`, in order. */
  function EntriesNamed(es: seq<Entry>, name: string): seq<Entry> {
    Filter(es, Named(name))
  }

  /** `FormData.set(name, v)`: the first entry named `name` takes the value
      and the later ones are removed; with no such entry, one is appended. */
  function FormDataSet(es: seq<Entry>, name: string, v: FormValue): (r: seq<Entry>)
    ensures |r| <= |es| + 1
    ensures (name, v) in r
  {
    if es == [] then [(name, v)]
    else if es[0].0 == name then [(name, v)] + Filter(es[1..], NotNamed(name))
    else [es[0]] + FormDataSet(es[1..], name, v)
  }

  lemma {:induction false} FilterNotNamedOthers(es: seq<Entry>, name: string, other: string)
    requires other != name
    ensures EntriesNamed(Filter(es, NotNamed(name)), other) == EntriesNamed(es, other)
  {
    if es != [] {
      FilterNotNamedOthers(es[1..], name, other);
    }
  }

  lemma {:induction false} FilterNotNamedNone(es: seq<Entry>, name: string)
    ensures EntriesNamed(Filter(es, NotNamed(name)), name) == []
  {
    if es != [] {
      FilterNotNamedNone(es[1..], name);
    }
  }

  /** After `set`, exactly one entry carries `name`, with the new value, and
      the entries under every other name are as they were, in order. */
  lemma {:induction false} FormDataSetEntries(es: seq<Entry>, name: string, v: FormValue, other: string)
    ensures EntriesNamed(FormDataSet(es, name, v), name) == [(name, v)]
    ensures other != name ==> EntriesNamed(FormDataSet(es, name, v), other) == EntriesNamed(es, other)
  {
    if es == [] {
    } else if es[0].0 == name {
      FilterNotNamedNone(es[1..], name);
      if other != name {
        FilterNotNamedOthers(es[1..], name, other);
      }
    } else {
      FormDataSetEntries(es[1..], name, v, other);
    }
  }

  /** The entry one field contributes: none for "images", which is sent as files. */
  function TextEntry(field: (string, string)): seq<Entry> {
    if field.0 != "images" then [(field.0, TextValue(field.1))] else []
  }

  /** One text entry per non-image field, in field order. */
  function TextEntries(fields: seq<(string, string)>): seq<Entry> {
    if fields == [] then []
    else TextEntries(fields[..|fields| - 1]) + TextEntry(fields[|fields| - 1])
  }

  /** One file entry per chosen image, in order. */
  function ImageEntries(images: seq<File>): seq<Entry> {
    seq(|images|, i requires 0 <= i < |images| => ("images", FileValue(images[i])))
  }

  /** The multipart payload the form submits. */
  function Payload(fields: seq<(string, string)>, images: seq<File>): (r: seq<Entry>)
    ensures |r| >= |images|
  {
    FormDataSet(TextEntries(fields), "status", TextValue(StatusFor(fields))) + ImageEntries(images)
  }

  /** The uploaded files always close the payload, one `images` entry each, in order. */
  lemma PayloadEndsWithImages(fields: seq<(string, string)>, images: seq<File>)
    ensures var r := Payload(fields, images);
      r[|r| - |images|..] == ImageEntries(images)
  {
    var head := FormDataSet(TextEntries(fields), "status", TextValue(StatusFor(fields)));
    assert Payload(fields, images) == head + ImageEntries(images);
    assert |ImageEntries(images)| == |images|;
  }

  /** The `for...in` loop over the fields, the status `set`, and the `forEach`
      over the images. */
  method BuildPayload(fields: seq<(string, string)>, images: seq<File>) returns (data: seq<Entry>)
    ensures data == Payload(fields, images)
  {
    data := [];
    var i := 0;
    while i < |fields|
      invariant 0 <= i <= |fields|
      invariant data == TextEntries(fields[..i])
    {
      var (key, value) := fields[i];
      assert fields[..i + 1][..i] == fields[..i];
      if key != "images" {
        data := data + [(key, TextValue(value))];
      }
      i := i + 1;
    }
    assert fields[..i] == fields;
    data := FormDataSet(data, "status", TextValue(StatusFor(fields)));
    ghost var head := data;
    var k := 0;
    while k < |images|
      invariant 0 <= k <= |images|
      invariant data == head + ImageEntries(images[..k])
    {
      ImageEntriesStep(images, k);
      data := data + [("images", FileValue(images[k]))];
      k := k + 1;
    }
    assert images[..k] == images;
  }

  lemma ImageEntriesStep(images: seq<File>, k: nat)
    requires k < |images|
    ensures ImageEntries(images[..k + 1]) == ImageEntries(images[..k]) + [("images", FileValue(images[k]))]
  {
    assert images[..k + 1][..k] == images[..k];
  }

  lemma {:induction false} TextEntriesNamed(fields: seq<(string, string)>, key: string)
    requires UniqueKeys(fields) && key != "images"
    ensures EntriesNamed(TextEntries(fields), key) ==
      match Lookup(fields, key) case None => [] case Some(v) => [(key, TextValue(v))]
  {
    if fields != [] {
      var front, last := fields[..|fields| - 1], fields[|fields| - 1];
      assert fields == front + [last];
      UniqueKeysSplit(front, last);
      TextEntriesNamed(front, key);
      FilterAppend(TextEntries(front), TextEntry(last), Named(key));
      TextEntryNamed(last, key);
      LookupSplit(front, last, key);
    }
  }

  lemma TextEntryNamed(field: (string, string), key: string)
    requires key != "images"
    ensures EntriesNamed(TextEntry(field), key) == if field.0 == key then [(key, TextValue(field.1))] else []
  {
    if field.0 == key {
      FilterAll(TextEntry(field), Named(key));
    } else {
      FilterNone(TextEntry(field), Named(key));
    }
  }

  lemma UniqueKeysSplit(front: seq<(string, string)>, last: (string, string))
    requires UniqueKeys(front + [last])
    ensures UniqueKeys(front)
    ensures forall i :: 0 <= i < |front| ==> front[i].0 != last.0
  {
    var fields := front + [last];
    forall i, j | 0 <= i < j < |front| ensures front[i].0 != front[j].0 {
      assert front[i] == fields[i] && front[j] == fields[j];
    }
    forall i | 0 <= i < |front| ensures front[i].0 != last.0 {
      assert front[i] == fields[i] && last == fields[|front|];
    }
  }

  lemma {:induction false} LookupSplit(front: seq<(string, string)>, last: (string, string), key: string)
    requires UniqueKeys(front + [last])
    ensures Lookup(front + [last], key) == if last.0 == key then Some(last.1) else Lookup(front, key)
  {
    if front == [] {
    } else {
      assert (front + [last])[1..] == front[1..] + [last];
      if front[0].0 != key {
        LookupSplit(front[1..], last, key);
      } else {
        assert (front + [last])[|front|] == last;
      }
    }
  }

  lemma ImageEntriesNamed(images: seq<File>, key: string)
    ensures EntriesNamed(ImageEntries(images), key) == if key == "images" then ImageEntries(images) else []
  {
    if key == "images" {
      FilterAll(ImageEntries(images), Named(key));
    } else {
      FilterNone(ImageEntries(images), Named(key));
    }
  }

  /** The payload carries exactly one status entry: "Featured" when the radio
      says "yes" and "For Sale" otherwise. */
  lemma PayloadStatus(fields: seq<(string, string)>, images: seq<File>)
    ensures EntriesNamed(Payload(fields, images), "status") ==
      [("status", TextValue(if Lookup(fields, "is_featured") == Some("yes") then FeaturedStatus else ForSaleStatus))]
  {
    var v := TextValue(StatusFor(fields));
    FormDataSetEntries(TextEntries(fields), "status", v, "status");
    FilterAppend(FormDataSet(TextEntries(fields), "status", v), ImageEntries(images), Named("status"));
    ImageEntriesNamed(images, "status");
  }

  /** Every other text field of the form is sent exactly once, with its value. */
  lemma PayloadField(fields: seq<(string, string)>, images: seq<File>, key: string, value: string)
    requires UniqueKeys(fields)
    requires key != "images" && key != "status"
    requires Lookup(fields, key) == Some(value)
    ensures EntriesNamed(Payload(fields, images), key) == [(key, TextValue(value))]
  {
    var v := TextValue(StatusFor(fields));
    FormDataSetEntries(TextEntries(fields), "status", v, key);
    FilterAppend(FormDataSet(TextEntries(fields), "status", v), ImageEntries(images), Named(key));
    ImageEntriesNamed(images, key);
    TextEntriesNamed(fields, key);
  }

  /** The image entries are the chosen files, each once, in their order. */
  lemma PayloadImages(fields: seq<(string, string)>, images: seq<File>)
    requires Lookup(fields, "images").None?
    ensures EntriesNamed(Payload(fields, images), "images") == ImageEntries(images)
  {
    var v := TextValue(StatusFor(fields));
    FormDataSetEntries(TextEntries(fields), "status", v, "images");
    FilterAppend(FormDataSet(TextEntries(fields), "status", v), ImageEntries(images), Named("images"));
    ImageEntriesNamed(images, "images");
    TextEntriesNoImages(fields);
  }

  lemma {:induction false} TextEntriesNoImages(fields: seq<(string, string)>)
    ensures EntriesNamed(TextEntries(fields), "images") == []
  {
    if fields != [] {
      var front, last := fields[..|fields| - 1], fields[|fields| - 1];
      TextEntriesNoImages(front);
      FilterAppend(TextEntries(front), TextEntry(last), Named("images"));
    }
  }

  // ---------------------------------------------------------------------------
  // The panel's state

  datatype FormStatus = NoStatus | Submitting | Succeeded | Failed
  datatype Tab = AllProperties | ContactMessages | AddProperty

  /** A form event: files picked in the file input, or a text input changed. */
  datatype FormEvent = FilesChosen(files: seq<File>) | FieldChanged(name: string, value: string)

  /** How a properties fetch settled: it threw, or it parsed a body whose
      `properties` field may be missing. */
  datatype PropertiesResponse = PropertiesUnreachable | PropertiesBody(properties: Option<seq<AdminListing>>)

  /** How a contacts fetch settled: it threw, or it parsed a body whose
      `data` field may be missing. */
  datatype ContactsResponse = ContactsUnreachable | ContactsBody(data: Option<seq<Contact>>)

  /** How the form's POST settled: accepted, or rejected (network error or a
      non-success status) with a message. */
  datatype SubmitResponse = Accepted | Rejected(message: string)

  class Panel {
    var properties: seq<AdminListing>
    var contacts: seq<Contact>
    var loading: bool
    var error: Option<string>
    var formStatus: FormStatus
    var activeTab: Tab
    var stats: Stats
    var fields: seq<(string, string)>
    var images: seq<File>

    /** The counters always describe the table, and the form's text fields
        have distinct names, none of them "images". */
    ghost predicate Valid()
      reads this
    {
      && stats == StatsOf(properties)
      && FormWellFormed(fields)
    }

    constructor ()
      ensures Valid()
      ensures properties == [] && contacts == [] && stats == Stats(0, 0)
      ensures loading && error.None? && formStatus == NoStatus && activeTab == AllProperties
      ensures fields == InitialFields() && images == []
    {
      properties := [];
      contacts := [];
      loading := true;
      error := None;
      formStatus := NoStatus;
      activeTab := AllProperties;
      stats := Stats(0, 0);
      fields := InitialFields();
      images := [];
    }

    /** `fetchProperties` settled: adopt the body's list (or an empty one)
        and recount; on failure keep the table and record the error. */
    method PropertiesFetched(response: PropertiesResponse)
      requires Valid()
      modifies this`properties, this`stats, this`error
      ensures Valid()
      ensures match response
        case PropertiesUnreachable =>
          properties == old(properties) && error == Some(PropertiesFetchError)
        case PropertiesBody(list) =>
          properties == (if list.Some? then list.value else []) && error == old(error)
    {
      match response
      case PropertiesUnreachable =>
        error := Some(PropertiesFetchError);
      case PropertiesBody(list) =>
        properties := if list.Some? then list.value else [];
        stats := StatsOf(properties);
    }

    /** `fetchContacts` settled: adopt `data` (or an empty list); a failure is only logged. */
    method ContactsFetched(response: ContactsResponse)
      modifies this`contacts
      ensures contacts == match response
        case ContactsUnreachable => old(contacts)
        case ContactsBody(data) => if data.Some? then data.value else []
    {
      if response.ContactsBody? {
        contacts := if response.data.Some? then response.data.value else [];
      }
    }

    /** Both initial fetches settled, whatever their outcome. */
    method InitialLoadSettled()
      modifies this`loading
      ensures !loading
    {
      loading := false;
    }

    /** A "newContact" push event: the new contact goes first. */
    method HandleNewContact(c: Contact)
      modifies this`contacts
      ensures contacts == [c] + old(contacts)
    {
      contacts := [c] + contacts;
    }

    /** A "propertyAdded" or "propertyUpdated" push event. */
    method HandlePropertyUpdate(u: AdminListing)
      requires Valid()
      modifies this`properties, this`stats
      ensures Valid()
      ensures properties == Upsert(old(properties), u)
    {
      var index := FindIndex(properties, u.dbId);
      var newProps := properties;
      if index != -1 {
        newProps := newProps[index := u];
      } else {
        newProps := [u] + newProps;
      }
      stats := StatsOf(newProps);
      properties := newProps;
    }

    /** A sidebar click. */
    method SelectTab(t: Tab)
      modifies this`activeTab
      ensures activeTab == t
    {
      activeTab := t;
    }

    /** A change in the form: files replace the chosen images (at most five),
        any other input overwrites its own field. */
    method HandleFormChange(e: FormEvent)
      requires Valid()
      requires e.FieldChanged? ==> e.name != "images"
      modifies this`fields, this`images
      ensures Valid()
      ensures match e
        case FilesChosen(files) => images == ChosenImages(files) && fields == old(fields)
        case FieldChanged(name, value) => fields == SetField(old(fields), name, value) && images == old(images)
    {
      match e
      case FilesChosen(files) =>
        images := ChosenImages(files);
      case FieldChanged(name, value) =>
        SetFieldKeepsKeysUnique(fields, name, value);
        fields := SetField(fields, name, value);
    }

    /** The submit handler up to the POST: the status becomes "submitting" and
        the payload is built from the form. */
    method HandleFormSubmit() returns (payload: seq<Entry>)
      modifies this`formStatus
      ensures formStatus == Submitting
      ensures payload == Payload(fields, images)
    {
      formStatus := Submitting;
      payload := BuildPayload(fields, images);
    }

    /** The POST settled. */
    method SubmitSettled(response: SubmitResponse)
      modifies this`formStatus, this`error
      ensures match response
        case Accepted => formStatus == Succeeded && error == old(error)
        case Rejected(message) => formStatus == Failed && error == Some(message)
    {
      match response
      case Accepted =>
        formStatus := Succeeded;
      case Rejected(message) =>
        formStatus := Failed;
        error := Some(message);
    }

    /** The 1.5-second timer after a successful submission. */
    method SuccessTimerFired()
      modifies this`activeTab, this`formStatus
      ensures activeTab == AllProperties && formStatus == NoStatus
    {
      activeTab := AllProperties;
      formStatus := NoStatus;
    }
  }
}

=== FILE: catalog.dfy ===
/** The catalog page: the filter panel's state, the six-way narrowing of the
    listings, the three sort orders and the location selector's options. */
module Catalog {
  import opened Optional
  import opened Seqs
  import opened Text
  import opened Listing

  const All: string := "All"
  const AnyCount: string := "Any"
  const DefaultMaxPrice: int := 100000000

  const NewestFirst: string := "Newest First"
  const PriceLowToHigh: string := "Price (Low to High)"
  const PriceHighToLow: string := "Price (High to Low)"

  /** The filter panel. Selectors hold the text of the chosen option, as in
      the source: "All" and "Any" are sentinels, not missing values. */
  datatype Filters = Filters(location: string, kind: string, price: int, bedrooms: string, bathrooms: string)

  const DefaultFilters: Filters := Filters(All, All, DefaultMaxPrice, AnyCount, AnyCount)
  const DefaultSearchTerm: string := ""

  /** The options of the category, room-count and sort selectors. */
  const TypeOptions: seq<string> := [All, "Apartment", "Villa", "Penthouse", "Commercial", "Off-Plan"]
  const RoomOptions: seq<string> := [AnyCount, "1", "2", "3", "4", "5+"]
  const SortOptions: seq<string> := [NewestFirst, PriceLowToHigh, PriceHighToLow]

  /** Every category can be chosen in the category selector. */
  lemma TypeOptionsCoverEveryType(t: PropertyType)
    ensures TypeName(t) in TypeOptions[1..]
  {
  }

  // ---------------------------------------------------------------------------
  // The filter panel's single-field update

  /** The five filter fields, by the names the change handler receives. */
  datatype FilterName = LocationField | TypeField | PriceField | BedroomsField | BathroomsField

  /** A value handed to the change handler: a string, or a number for the price slider. */
  datatype FilterValue = TextValue(text: string) | NumberValue(number: int)

  function Get(f: Filters, name: FilterName): FilterValue {
    match name
    case LocationField => TextValue(f.location)
    case TypeField => TextValue(f.kind)
    case PriceField => NumberValue(f.price)
    case BedroomsField => TextValue(f.bedrooms)
    case BathroomsField => TextValue(f.bathrooms)
  }

  /** The slider sends a number and every selector sends its option's text. */
  predicate Fits(name: FilterName, v: FilterValue) {
    v.NumberValue? <==> name == PriceField
  }

  /** `{ ...prev, [name]: value }`: field `name` becomes `v`, the others stay. */
  function HandleFilterChange(f: Filters, name: FilterName, v: FilterValue): (r: Filters)
    requires Fits(name, v)
    ensures Get(r, name) == v
    ensures forall other :: other != name ==> Get(r, other) == Get(f, other)
  {
    match name
    case LocationField => f.(location := v.text)
    case TypeField => f.(kind := v.text)
    case PriceField => f.(price := v.number)
    case BedroomsField => f.(bedrooms := v.text)
    case BathroomsField => f.(bathrooms := v.text)
  }

  // ---------------------------------------------------------------------------
  // The six filters

  predicate LocationOk(f: Filters, p: Property) {
    f.location == All || p.location == f.location
  }

  predicate TypeOk(f: Filters, p: Property) {
    f.kind == All || TypeName(p.kind) == f.kind
  }

  predicate PriceOk(f: Filters, p: Property) {
    p.price <= f.price
  }

  /** `selection === 'Any' || count >= parseInt(selection)`; a comparison
      with `NaN` is false, so an option without a leading number keeps nothing. */
  function MeetsMinimum(selection: string, count: int): (r: bool)
    ensures selection == AnyCount ==> r
    ensures selection != AnyCount && ParseInt(selection).None? ==> !r
  {
    selection == AnyCount || (ParseInt(selection).Some? && count >= ParseInt(selection).value)
  }

  predicate BedroomsOk(f: Filters, p: Property) {
    MeetsMinimum(f.bedrooms, p.bedrooms)
  }

  predicate BathroomsOk(f: Filters, p: Property) {
    MeetsMinimum(f.bathrooms, p.bathrooms)
  }

  /** The search term, lower-cased, occurs in the lower-cased title or location. */
  function SearchOk(term: string, p: Property): (r: bool)
    ensures r <==> (exists i :: OccursAt(ToLower(p.title), ToLower(term), i)) ||
                   (exists i :: OccursAt(ToLower(p.location), ToLower(term), i))
  {
    Contains(ToLower(p.title), ToLower(term)) || Contains(ToLower(p.location), ToLower(term))
  }

  /** A listing passes all six filters. */
  function Matches(f: Filters, term: string, p: Property): (r: bool)
    ensures r ==> p.price <= f.price
    ensures r && f.location != All ==> p.location == f.location
    ensures r && f.kind != All ==> TypeName(p.kind) == f.kind
  {
    LocationOk(f, p) && TypeOk(f, p) && PriceOk(f, p) && BedroomsOk(f, p) && BathroomsOk(f, p) && SearchOk(term, p)
  }

  /** The `.filter` chain, one stage per filter, in the source's order. */
  function Narrow(props: seq<Property>, f: Filters, term: string): (r: seq<Property>)
    ensures |r| <= |props|
  {
    var byLocation := Filter(props, p => LocationOk(f, p));
    var byType := Filter(byLocation, p => TypeOk(f, p));
    var byPrice := Filter(byType, p => PriceOk(f, p));
    var byBedrooms := Filter(byPrice, p => BedroomsOk(f, p));
    var byBathrooms := Filter(byBedrooms, p => BathroomsOk(f, p));
    Filter(byBathrooms, p => SearchOk(term, p))
  }

  /** Completeness: a listing that passes every filter survives the chain as
      many times as the input holds it, and any other listing not at all. */
  lemma NarrowCount(props: seq<Property>, f: Filters, term: string, x: Property)
    ensures multiset(Narrow(props, f, term))[x] == if Matches(f, term, x) then multiset(props)[x] else 0
  {
    var byLocation := Filter(props, p => LocationOk(f, p));
    var byType := Filter(byLocation, p => TypeOk(f, p));
    var byPrice := Filter(byType, p => PriceOk(f, p));
    var byBedrooms := Filter(byPrice, p => BedroomsOk(f, p));
    var byBathrooms := Filter(byBedrooms, p => BathroomsOk(f, p));
    FilterCount(props, p => LocationOk(f, p), x);
    FilterCount(byLocation, p => TypeOk(f, p), x);
    FilterCount(byType, p => PriceOk(f, p), x);
    FilterCount(byPrice, p => BedroomsOk(f, p), x);
    FilterCount(byBedrooms, p => BathroomsOk(f, p), x);
    FilterCount(byBathrooms, p => SearchOk(term, p), x);
  }

  /** An empty search term matches every listing. */
  lemma EmptySearchMatchesAll(p: Property)
    ensures SearchOk(DefaultSearchTerm, p)
  {
    ContainsEmpty(ToLower(p.title));
  }

  /** Under the default filters and an empty search, only the price ceiling decides. */
  lemma DefaultsMatchOnPriceOnly(p: Property)
    ensures Matches(DefaultFilters, DefaultSearchTerm, p) <==> p.price <= DefaultMaxPrice
  {
    EmptySearchMatchesAll(p);
  }

  /** The default panel keeps every listing, in order, when none costs more
      than the default ceiling. */
  lemma DefaultsKeepAffordable(props: seq<Property>)
    requires forall i :: 0 <= i < |props| ==> props[i].price <= DefaultMaxPrice
    ensures Narrow(props, DefaultFilters, DefaultSearchTerm) == props
  {
    var f, term := DefaultFilters, DefaultSearchTerm;
    forall i | 0 <= i < |props| ensures Matches(f, term, props[i]) {
      DefaultsMatchOnPriceOnly(props[i]);
    }
    FilterAll(props, p => LocationOk(f, p));
    FilterAll(props, p => TypeOk(f, p));
    FilterAll(props, p => PriceOk(f, p));
    FilterAll(props, p => BedroomsOk(f, p));
    FilterAll(props, p => BathroomsOk(f, p));
    FilterAll(props, p => SearchOk(term, p));
  }

  /** The room option "5+" keeps listings with at least five rooms: only its
      leading number is read. */
  lemma FivePlusMeansAtLeastFive(count: int)
    ensures MeetsMinimum("5+", count) <==> count >= 5
  {
    assert Decimal(5) + "+" == "5+";
    ParseIntOfDecimal(5, "+");
  }

  /** The options "1" to "4" keep listings with at least that many rooms. */
  lemma NumberOptionMeansAtLeast(k: nat, count: int)
    requires 1 <= k <= 4
    ensures MeetsMinimum(Decimal(k), count) <==> count >= k
  {
    assert Decimal(k) + "" == Decimal(k);
    ParseIntOfDecimal(k, "");
  }

  /** Each room option after "Any" keeps exactly the listings with at least
      as many rooms as its position in the selector. */
  lemma RoomOptionsAreMinimums(i: nat, count: int)
    requires 1 <= i < |RoomOptions|
    ensures MeetsMinimum(RoomOptions[i], count) <==> count >= i
  {
    if i == 5 {
      FivePlusMeansAtLeastFive(count);
    } else {
      assert RoomOptions[i] == Decimal(i);
      NumberOptionMeansAtLeast(i, count);
    }
  }

  /** Choosing a category option keeps exactly the listings of one category. */
  lemma TypeOptionSelectsOneCategory(i: nat, f: Filters, p: Property)
    requires 1 <= i < |TypeOptions| && f.kind == TypeOptions[i]
    ensures exists t :: TypeName(t) == f.kind && (TypeOk(f, p) <==> p.kind == t)
  {
    var t := [Apartment, Villa, Penthouse, Commercial, OffPlan][i - 1];
    assert TypeName(t) == f.kind;
    TypeNameInjective(p.kind, t);
  }

  /** The search ignores the case of the term and of the listing's text. */
  lemma SearchIgnoresCase(term: string, p: Property)
    ensures SearchOk(term, p) == SearchOk(ToLower(term), p)
    ensures SearchOk(term, p) == SearchOk(term, p.(title := ToLower(p.title), location := ToLower(p.location)))
  {
    ToLowerIdempotent(term);
    ToLowerIdempotent(p.title);
    ToLowerIdempotent(p.location);
  }

  /** The search sees the term and the listing's text only through their
      lower-cased forms: strings that lower-case alike search alike. */
  lemma SearchSeesOnlyLowerCase(t1: string, t2: string, p: Property, q: Property)
    requires ToLower(t1) == ToLower(t2)
    requires ToLower(p.title) == ToLower(q.title) && ToLower(p.location) == ToLower(q.location)
    ensures SearchOk(t1, p) == SearchOk(t2, q)
  {
  }

  // ---------------------------------------------------------------------------
  // Sorting

  /** `id.substring(1)`: the identifier without its first character. */
  function IdSuffix(id: string): string {
    if id == [] then [] else id[1..]
  }

  /** The identifier's suffix reads as a number. */
  predicate HasIdKey(id: string) {
    ParseInt(IdSuffix(id)).Some?
  }

  /** `parseInt(id.substring(1))`, the recency proxy of "Newest First". It is
      0 where JavaScript has NaN; the query never relies on that value. */
  function IdKey(id: string): (r: int)
    ensures HasIdKey(id) ==> ParseInt(IdSuffix(id)) == Some(r)
  {
    match ParseInt(IdSuffix(id))
    case Some(v) => v
    case None => 0
  }

  method Swap<T>(a: array<T>, i: int, j: int)
    requires 0 <= i < a.Length && 0 <= j < a.Length
    modifies a
    ensures a[i] == old(a[j]) && a[j] == old(a[i])
    ensures forall k :: 0 <= k < a.Length && k != i && k != j ==> a[k] == old(a[k])
    ensures multiset(a[..]) == multiset(old(a[..]))
  {
    var t := a[i];
    a[i] := a[j];
    a[j] := t;
  }

  /** `Array.prototype.sort` with the comparator `(x, y) => key(x) - key(y)`:
      reorders `a` in place into non-decreasing key order. */
  method SortByKey<T>(a: array<T>, key: T -> int)
    modifies a
    ensures forall i, j :: 0 <= i < j < a.Length ==> key(a[i]) <= key(a[j])
    ensures multiset(a[..]) == multiset(old(a[..]))
  {
    var i := 0;
    while i < a.Length
      invariant 0 <= i <= a.Length
      invariant forall k, l :: 0 <= k < l < i ==> key(a[k]) <= key(a[l])
      invariant multiset(a[..]) == multiset(old(a[..]))
    {
      var j := i;
      while j > 0 && key(a[j - 1]) > key(a[j])
        invariant 0 <= j <= i
        invariant forall k, l :: 0 <= k < l <= i && k != j && l != j ==> key(a[k]) <= key(a[l])
        invariant forall l :: j < l <= i ==> key(a[j]) <= key(a[l])
        invariant multiset(a[..]) == multiset(old(a[..]))
      {
        Swap(a, j - 1, j);
        j := j - 1;
      }
      i := i + 1;
    }
  }

  /** The order each sort mode promises; an unknown mode promises none. */
  ghost predicate Ordered(s: seq<Property>, sortBy: string) {
    && (sortBy == PriceLowToHigh ==> forall i, j :: 0 <= i < j < |s| ==> s[i].price <= s[j].price)
    && (sortBy == PriceHighToLow ==> forall i, j :: 0 <= i < j < |s| ==> s[i].price >= s[j].price)
    && (sortBy == NewestFirst ==> forall i, j :: 0 <= i < j < |s| ==> IdKey(s[i].id) >= IdKey(s[j].id))
  }

  /** The `switch (sortBy)` of the source, applied to the array in place. */
  method SortListings(a: array<Property>, sortBy: string)
    modifies a
    ensures multiset(a[..]) == multiset(old(a[..]))
    ensures Ordered(a[..], sortBy)
    ensures sortBy !in SortOptions ==> a[..] == old(a[..])
  {
    if sortBy == PriceLowToHigh {
      SortByKey(a, (p: Property) => p.price);
    } else if sortBy == PriceHighToLow {
      SortByKey(a, (p: Property) => -p.price);
    } else if sortBy == NewestFirst {
      SortByKey(a, (p: Property) => -IdKey(p.id));
    }
  }

  /** The listings to show: the input narrowed by the six filters, then
      sorted by the chosen mode (an unknown mode leaves the filter's order).
      Under "Newest First" the identifiers of the matching listings must
      carry a numeric suffix: otherwise the source's comparator yields NaN
      and the resulting order is unspecified. */
  method FilteredAndSorted(props: seq<Property>, f: Filters, sortBy: string, term: string)
    returns (r: seq<Property>)
    requires sortBy == NewestFirst ==>
      forall i :: 0 <= i < |props| && Matches(f, term, props[i]) ==> HasIdKey(props[i].id)
    ensures forall i :: 0 <= i < |r| ==> r[i] in props && Matches(f, term, r[i])
    ensures forall x :: multiset(r)[x] == if Matches(f, term, x) then multiset(props)[x] else 0
    ensures Ordered(r, sortBy)
    ensures sortBy == NewestFirst ==> forall i :: 0 <= i < |r| ==> HasIdKey(r[i].id)
    ensures sortBy !in SortOptions ==> r == Narrow(props, f, term)
  {
    var filtered := Narrow(props, f, term);
    var a := new Property[|filtered|](i requires 0 <= i < |filtered| => filtered[i]);
    assert forall i :: 0 <= i < a.Length ==> a[i] == filtered[i];
    assert a[..] == filtered;
    SortListings(a, sortBy);
    r := a[..];
    PermutationOfNarrowed(r, props, f, term);
  }

  /** Any reordering of the narrowed listings is sound and complete. */
  lemma PermutationOfNarrowed(r: seq<Property>, props: seq<Property>, f: Filters, term: string)
    requires multiset(r) == multiset(Narrow(props, f, term))
    ensures forall i :: 0 <= i < |r| ==> r[i] in props && Matches(f, term, r[i])
    ensures forall x :: multiset(r)[x] == if Matches(f, term, x) then multiset(props)[x] else 0
  {
    forall x ensures multiset(r)[x] == if Matches(f, term, x) then multiset(props)[x] else 0 {
      NarrowCount(props, f, term, x);
    }
    forall i | 0 <= i < |r| ensures r[i] in props && Matches(f, term, r[i]) {
      assert r[i] in multiset(Narrow(props, f, term));
    }
  }

  /** Soundness: every listing shown is from the input and passes every filter. */
  lemma NarrowSound(props: seq<Property>, f: Filters, term: string)
    ensures forall i :: 0 <= i < |Narrow(props, f, term)| ==>
      Narrow(props, f, term)[i] in props && Matches(f, term, Narrow(props, f, term)[i])
  {
    PermutationOfNarrowed(Narrow(props, f, term), props, f, term);
  }

  // ---------------------------------------------------------------------------
  // The location selector

  function LocationsOf(props: seq<Property>): (r: seq<string>)
    ensures |r| == |props| && forall i :: 0 <= i < |props| ==> r[i] == props[i].location
  {
    seq(|props|, i requires 0 <= i < |props| => props[i].location)
  }

  /** `[...new Set(s)]`: each value once, in the order of its first appearance. */
  function Distinct(s: seq<string>): (r: seq<string>)
    ensures forall x :: x in r <==> x in s
    ensures NoDuplicates(r)
  {
    if s == [] then []
    else
      var d := Distinct(s[..|s| - 1]);
      assert forall x :: x in s <==> x in s[..|s| - 1] || x == s[|s| - 1];
      if s[|s| - 1] in d then d else d + [s[|s| - 1]]
  }

  /** The index of the first occurrence of `x` in `s`. */
  function FirstIndex(s: seq<string>, x: string): (r: nat)
    requires x in s
    ensures r < |s| && s[r] == x
    ensures forall k :: 0 <= k < r ==> s[k] != x
  {
    if s[0] == x then 0 else 1 + FirstIndex(s[1..], x)
  }

  lemma {:induction false} FirstIndexInPrefix(s: seq<string>, n: nat, x: string)
    requires n <= |s| && x in s[..n]
    ensures FirstIndex(s, x) == FirstIndex(s[..n], x)
  {
    var k := FirstIndex(s[..n], x);
    var m := FirstIndex(s, x);
    assert s[k] == x;
    assert m <= k;
    assert s[..n][m] == x;
  }

  /** Values come out in the order in which they first appear. */
  lemma {:induction false} DistinctFirstAppearance(s: seq<string>)
    ensures forall i, j :: 0 <= i < j < |Distinct(s)| ==>
      FirstIndex(s, Distinct(s)[i]) < FirstIndex(s, Distinct(s)[j])
  {
    if s != [] {
      var n := |s| - 1;
      var front := s[..n];
      var d := Distinct(front);
      DistinctFirstAppearance(front);
      forall x | x in d ensures FirstIndex(s, x) == FirstIndex(front, x) < n {
        FirstIndexInPrefix(s, n, x);
      }
      if s[n] !in d {
        assert FirstIndex(s, s[n]) == n;
      }
    }
  }

  /** The location selector's options: "All", then each listing location once. */
  function Locations(props: seq<Property>): (r: seq<string>)
    ensures |r| >= 1 && r[0] == All
    ensures forall loc :: loc in r[1..] <==> exists i :: 0 <= i < |props| && props[i].location == loc
    ensures NoDuplicates(r[1..])
  {
    var d := Distinct(LocationsOf(props));
    assert ([All] + d)[1..] == d;
    [All] + d
  }

  /** The locations after "All" follow the listings' first-appearance order. */
  lemma LocationsInFirstAppearanceOrder(props: seq<Property>)
    ensures forall i, j :: 1 <= i < j < |Locations(props)| ==>
      FirstIndex(LocationsOf(props), Locations(props)[i]) < FirstIndex(LocationsOf(props), Locations(props)[j])
  {
    var d := Distinct(LocationsOf(props));
    DistinctFirstAppearance(LocationsOf(props));
    assert forall i :: 1 <= i < |Locations(props)| ==> Locations(props)[i] == d[i - 1];
  }

  /** `properties.find(x => x.id === id)`: the first listing with that identifier. */
  function FindById(props: seq<Property>, id: string): (r: Option<Property>)
    ensures r.None? <==> forall i :: 0 <= i < |props| ==> props[i].id != id
    ensures r.Some? ==> exists i :: 0 <= i < |props| && props[i] == r.value && r.value.id == id &&
                                    (forall k :: 0 <= k < i ==> props[k].id != id)
  {
    if props == [] then None
    else if props[0].id == id then Some(props[0])
    else
      var r := FindById(props[1..], id);
      assert r.Some? ==> exists i :: 0 < i < |props| && props[i] == r.value && r.value.id == id &&
                                     (forall k :: 0 <= k < i ==> props[k].id != id) by {
        if r.Some? {
          var i :| 0 <= i < |props[1..]| && props[1..][i] == r.value && r.value.id == id &&
                   (forall k :: 0 <= k < i ==> props[1..][k].id != id);
          assert props[i + 1] == r.value;
        }
      }
      r
  }
}

=== FILE: detail.dfy ===
/** The listing detail page: the "similar properties" strip, the favourite
    marker and the image gallery with its main image. */
module Detail {
  import opened Optional
  import opened Seqs
  import opened Listing
  import Session

  /** Catalogue entries of the viewed listing's category other than itself. */
  function SameKindOther(property: Property): Property -> bool {
    (p: Property) => p.kind == property.kind && p.id != property.id
  }

  /** The similar listings: the first three catalogue entries of the same
      category as the viewed listing, leaving out the listing itself, in
      catalogue order. */
  function SimilarProperties(catalog: seq<Property>, property: Property): (r: seq<Property>)
    ensures |r| <= 3
    ensures |r| == if |Filter(catalog, SameKindOther(property))| < 3 then |Filter(catalog, SameKindOther(property))| else 3
    ensures r == Filter(catalog, SameKindOther(property))[..|r|]
    ensures forall i :: 0 <= i < |r| ==> r[i] in catalog && r[i].kind == property.kind && r[i].id != property.id
    ensures property !in r
  {
    Take(Filter(catalog, SameKindOther(property)), 3)
  }

  /** With at least three other listings of the category, exactly the first
      three of them in catalogue order are shown. */
  lemma {:induction false} SimilarTakesFirstThree(catalog: seq<Property>, property: Property, a: Property, b: Property, c: Property, rest: seq<Property>)
    requires SameKindOther(property)(a) && SameKindOther(property)(b) && SameKindOther(property)(c)
    ensures SimilarProperties([a, b, c] + rest, property) == [a, b, c]
  {
    var p := SameKindOther(property);
    FilterAppend([a, b, c], rest, p);
    FilterAll([a, b, c], p);
  }

  /** Whether the heart marker shows the listing as a favourite:
      `favorites.includes(property.id)`. */
  function IsFavorite(favorites: seq<string>, property: Property): (r: bool)
    ensures r <==> exists i :: 0 <= i < |favorites| && favorites[i] == property.id
  {
    property.id in favorites
  }

  /** Pressing the heart on the detail page flips the marker. */
  lemma ToggleFlipsMarker(favorites: seq<string>, property: Property)
    ensures IsFavorite(Session.Toggle(favorites, property.id), property) <==> !IsFavorite(favorites, property)
  {
  }

  /** `images[0]`: the first image, or nothing when the listing has none. */
  function FirstImage(images: seq<string>): (r: Option<string>)
    ensures r.None? <==> images == []
    ensures r.Some? ==> r.value in images && r.value == images[0]
  {
    if images == [] then None else Some(images[0])
  }

  /** The gallery's state: the listing it was mounted with (its props) and the
      image shown large. */
  class Gallery {
    var property: Property
    var mainImage: Option<string>

    /** The main image is one of the listing's images, and is missing only
        when the listing has no image. */
    ghost predicate Valid()
      reads this
    {
      (mainImage.Some? ==> mainImage.value in property.images) &&
      (mainImage.None? ==> property.images == [])
    }

    /** Mounting: the main image starts as the first image. */
    constructor (p: Property)
      ensures Valid()
      ensures property == p && mainImage == FirstImage(p.images)
    {
      property := p;
      mainImage := FirstImage(p.images);
    }

    /** Whether thumbnail `k` carries the highlight ring. */
    predicate Highlighted(k: nat)
      requires k < |property.images|
      reads this
    {
      mainImage == Some(property.images[k])
    }

    /** Clicking thumbnail `k` shows that image; every thumbnail showing the
        same image is then highlighted, and no other. */
    method ClickThumbnail(k: nat)
      requires k < |property.images|
      modifies this`mainImage
      ensures Valid()
      ensures mainImage == Some(property.images[k])
      ensures forall j :: 0 <= j < |property.images| ==> (Highlighted(j) <==> property.images[j] == property.images[k])
    {
      mainImage := Some(property.images[k]);
    }

    /** New props for a mounted gallery, as the page receives them when a
        similar listing is opened: the listing changes, the main image is
        kept. */
    method ReceiveProps(p: Property)
      modifies this`property
      ensures property == p && mainImage == old(mainImage)
    {
      property := p;
    }

    /** Showing a listing as a fresh page (keyed by the listing's id): the
        main image restarts at the new listing's first image. */
    method ShowProperty(p: Property)
      modifies this
      ensures Valid()
      ensures property == p && mainImage == FirstImage(p.images)
    {
      property := p;
      mainImage := FirstImage(p.images);
    }
  }

  /** A mounted page handed a second listing keeps the first listing's main
      image, which need not be one of the second listing's images. */
  method StaleMainImage(first: Property, next: Property) returns (shown: Property, main: Option<string>)
    requires first.images != [] && first.images[0] !in next.images
    ensures shown == next && main == Some(first.images[0])
    ensures main.Some? && main.value !in shown.images
  {
    var g := new Gallery(first);
    g.ReceiveProps(next);
    shown, main := g.property, g.mainImage;
  }

  /** A stale main image is repaired by a click on any thumbnail of the
      listing shown: the main image then belongs to that listing again. */
  method ThumbnailClickRepairsStaleImage(first: Property, next: Property, k: nat)
    returns (shown: Property, main: Option<string>)
    requires k < |next.images|
    ensures shown == next && main == Some(next.images[k])
    ensures main.value in shown.images
  {
    var g := new Gallery(first);
    g.ReceiveProps(next);
    g.ClickThumbnail(k);
    shown, main := g.property, g.mainImage;
  }

  /** With the page remounted for each listing, whatever was shown before,
      the main image is the new listing's first image and belongs to it. */
  method FreshMainImage(first: Property, next: Property) returns (shown: Property, main: Option<string>)
    ensures shown == next && main == FirstImage(next.images)
    ensures main.Some? ==> main.value in shown.images
    ensures main.None? ==> shown.images == []
  {
    var g := new Gallery(first);
    g.ShowProperty(next);
    shown, main := g.property, g.mainImage;
  }
}

=== FILE: home.dfy ===
/** The home page: the featured strip, the rotating testimonial and the
    animated statistics counter. */
module Home {
  import opened Optional
  import opened Seqs
  import opened Listing

  function IsFeatured(): Property -> bool {
    (p: Property) => p.status == Featured
  }

  /** The featured strip: the first three featured listings, in catalogue order. */
  function FeaturedProperties(catalog: seq<Property>): (r: seq<Property>)
    ensures |r| <= 3
    ensures |r| == if |Filter(catalog, IsFeatured())| < 3 then |Filter(catalog, IsFeatured())| else 3
    ensures r == Filter(catalog, IsFeatured())[..|r|]
    ensures forall i :: 0 <= i < |r| ==> r[i] in catalog && r[i].status == Featured
  {
    Take(Filter(catalog, IsFeatured()), 3)
  }

  /** A catalogue with no featured listing shows an empty strip. */
  lemma NoFeaturedShowsNothing(catalog: seq<Property>)
    requires forall i :: 0 <= i < |catalog| ==> catalog[i].status != Featured
    ensures FeaturedProperties(catalog) == []
  {
    FilterNone(catalog, IsFeatured());
  }

  // ---------------------------------------------------------------------
  // Testimonial rotation

  /** One tick of the rotation: `(prev + 1) % length`. With no testimonials
      the remainder is NaN, written `None`, and NaN stays NaN. */
  function NextTestimonial(current: Option<nat>, length: nat): (r: Option<nat>)
    ensures r.Some? <==> current.Some? && length > 0
    ensures r.Some? ==> r.value < length
  {
    if current.None? || length == 0 then None else Some((current.value + 1) % length)
  }

  /** The index after `ticks` ticks. */
  function Rotate(current: Option<nat>, length: nat, ticks: nat): Option<nat> {
    if ticks == 0 then current else NextTestimonial(Rotate(current, length, ticks - 1), length)
  }

  lemma {:induction false} MulAtLeast(k: nat, n: nat)
    requires k >= 1
    ensures k * n >= n
  {
    if k > 1 {
      MulAtLeast(k - 1, n);
      assert k * n == (k - 1) * n + n;
    }
  }

  /** Division with remainder is unique. */
  lemma ModUnique(x: int, q: int, r: int, n: int)
    requires n > 0 && 0 <= r < n && x == q * n + r
    ensures x % n == r
  {
    var q', r' := x / n, x % n;
    assert x == q' * n + r';
    if q' > q {
      MulAtLeast(q' - q, n);
    } else if q' < q {
      MulAtLeast(q - q', n);
    }
  }

  lemma ModSucc(x: nat, n: nat)
    requires n > 0
    ensures (x % n + 1) % n == (x + 1) % n
  {
    var q, r := x / n, x % n;
    assert x == q * n + r;
    if r + 1 < n {
      ModUnique(x + 1, q, r + 1, n);
      ModUnique(r + 1, 0, r + 1, n);
    } else {
      ModUnique(x + 1, q + 1, 0, n);
      ModUnique(n, 1, 0, n);
    }
  }

  /** After `ticks` ticks the index has advanced by `ticks` modulo the length. */
  lemma {:induction false} RotateAdvances(start: nat, length: nat, ticks: nat)
    requires start < length
    ensures Rotate(Some(start), length, ticks) == Some((start + ticks) % length)
  {
    if ticks > 0 {
      var before := (start + ticks - 1) % length;
      RotateAdvances(start, length, ticks - 1);
      assert Rotate(Some(start), length, ticks) == NextTestimonial(Some(before), length);
      ModSucc(start + ticks - 1, length);
    }
  }

  /** After as many ticks as there are testimonials the index is back where it started. */
  lemma FullCycle(start: nat, length: nat)
    requires start < length
    ensures Rotate(Some(start), length, length) == Some(start)
  {
    RotateAdvances(start, length, length);
    ModUnique(start + length, 1, start, length);
  }

  /** The rotating testimonial: its index and the number of testimonials. */
  class Carousel {
    var current: Option<nat>
    const length: nat

    /** Mounting: the first testimonial is shown. */
    constructor (testimonials: nat)
      ensures current == Some(0) && length == testimonials
    {
      current := Some(0);
      length := testimonials;
    }

    /** The five-second timer fired. */
    method Tick()
      modifies this`current
      ensures current == NextTestimonial(old(current), length)
    {
      current := NextTestimonial(current, length);
    }
  }

  // ---------------------------------------------------------------------
  // Animated counter

  /** The counter's state: the timer's `start` variable, the displayed
      `count`, and whether the interval is still set. */
  datatype Animation = Animation(start: int, count: int, running: bool)

  /** The component before it first becomes visible. */
  const Unseen := Animation(0, 0, false)

  /** Becoming visible: `start` restarts at 0 and the interval is set unless
      the target is 0 already. The displayed count is left as it was. */
  function Appear(target: int, a: Animation): (r: Animation)
    ensures r.start == 0 && r.count == a.count
    ensures r.running <==> target != 0
  {
    Animation(0, a.count, target != 0)
  }

  /** Leaving the screen clears the interval. */
  function Disappear(a: Animation): (r: Animation)
    ensures !r.running && r.start == a.start && r.count == a.count
  {
    a.(running := false)
  }

  /** One firing of the interval: `start` and the display go up by one, and
      the interval is cleared on reaching the target. A cleared interval
      does not fire. */
  function Step(target: int, a: Animation): (r: Animation)
    ensures !a.running ==> r == a
    ensures a.running ==> r.start == a.start + 1 && r.count == r.start && (r.running <==> r.start != target)
  {
    if !a.running then a else Animation(a.start + 1, a.start + 1, a.start + 1 != target)
  }

  function Steps(target: int, a: Animation, ticks: nat): Animation
    decreases ticks
  {
    if ticks == 0 then a else Steps(target, Step(target, a), ticks - 1)
  }

  /** A stopped counter stays as it is. */
  lemma {:induction false} StoppedStaysPut(target: int, a: Animation, ticks: nat)
    requires !a.running
    ensures Steps(target, a, ticks) == a
    decreases ticks
  {
    if ticks > 0 {
      StoppedStaysPut(target, Step(target, a), ticks - 1);
    }
  }

  /** With a target of 0 nothing is ever animated. */
  lemma ZeroTargetStaysIdle(a: Animation, ticks: nat)
    ensures Steps(0, Appear(0, a), ticks) == Appear(0, a)
    ensures Steps(0, Appear(0, a), ticks).count == a.count
  {
    StoppedStaysPut(0, Appear(0, a), ticks);
  }

  /** While below the target, each tick raises the count by exactly one, and
      the interval stops exactly when the count reaches the target. */
  lemma {:induction false} CountsUpByOne(target: int, a: Animation, ticks: nat)
    requires a.running && 0 <= a.start && a.start + ticks <= target
    ensures ticks > 0 ==> Steps(target, a, ticks) == Animation(a.start + ticks, a.start + ticks, a.start + ticks < target)
    decreases ticks
  {
    if ticks > 1 {
      CountsUpByOne(target, Step(target, a), ticks - 1);
    }
  }

  /** For a positive target, after `k` ticks of a freshly visible counter the
      display reads `k` while `k` is at most the target, and stays at the
      target forever after. */
  lemma StopsAtTarget(target: int, a: Animation, ticks: nat)
    requires target > 0
    ensures 0 < ticks <= target ==> Steps(target, Appear(target, a), ticks) == Animation(ticks, ticks, ticks < target)
    ensures ticks >= target ==> Steps(target, Appear(target, a), ticks) == Animation(target, target, false)
  {
    var b := Appear(target, a);
    if 0 < ticks <= target {
      CountsUpByOne(target, b, ticks);
    }
    if ticks >= target {
      CountsUpByOne(target, b, target);
      StepsSplit(target, b, target, ticks - target);
      StoppedStaysPut(target, Steps(target, b, target), ticks - target);
    }
  }

  lemma {:induction false} StepsSplit(target: int, a: Animation, m: nat, n: nat)
    ensures Steps(target, a, m + n) == Steps(target, Steps(target, a, m), n)
    decreases m
  {
    if m > 0 {
      StepsSplit(target, Step(target, a), m - 1, n);
    }
  }

  /** What the counter keeps true for a positive target: the display never
      exceeds the target, and a running interval is still below it. */
  ghost predicate Bounded(target: int, a: Animation) {
    0 <= a.count <= target && (a.running ==> 0 <= a.start < target)
  }

  /** The display never exceeds a positive target, however the counter is
      shown, hidden and ticked. */
  lemma BoundedPreserved(target: int, a: Animation)
    requires target > 0 && Bounded(target, a)
    ensures Bounded(target, Step(target, a))
    ensures Bounded(target, Appear(target, a))
    ensures Bounded(target, Disappear(a))
  {
  }

  /** A negative target is never reached: the interval runs forever and the
      display keeps climbing. */
  lemma {:induction false} NegativeTargetNeverStops(target: int, a: Animation, ticks: nat)
    requires target < 0 && a.running && a.start >= 0
    ensures Steps(target, a, ticks).running
    ensures Steps(target, a, ticks).start == a.start + ticks
    decreases ticks
  {
    if ticks > 0 {
      NegativeTargetNeverStops(target, Step(target, a), ticks - 1);
    }
  }

  /** The mounted counter: the target it animates to and its animation state. */
  class Counter {
    const target: int
    var start: int
    var count: int
    var running: bool

    function State(): Animation
      reads this
    {
      Animation(start, count, running)
    }

    constructor (value: int)
      ensures target == value && State() == Unseen
    {
      target := value;
      start, count, running := 0, 0, false;
    }

    method BecomeVisible()
      modifies this
      ensures State() == Appear(target, old(State()))
    {
      start := 0;
      running := target != 0;
    }

    method BecomeHidden()
      modifies this`running
      ensures State() == Disappear(old(State()))
    {
      running := false;
    }

    /** One firing of the interval, which is only set while running. */
    method Tick()
      requires running
      modifies this
      ensures State() == Step(target, old(State()))
    {
      start := start + 1;
      count := start;
      if start == target {
        running := false;
      }
    }
  }
}

=== FILE: listing.dfy ===
/** The shared record types: pages of the site and the `Property` listing. */
module Listing {

  /** The pages the session controller can show. */
  datatype Page = Home | Properties | PropertyDetail | About | Contact

  /** The category of a listing. */
  datatype PropertyType = Apartment | Villa | Penthouse | Commercial | OffPlan

  /** The three-valued marketing status of a listing. */
  datatype Status = Featured | New | ForSale

  datatype Agent = Agent(name: string, image: string)

  datatype Coordinates = Coordinates(lat: real, lng: real)

  /** One listing of the catalog. Price, room counts and area are whole numbers. */
  datatype Property = Property(
    id: string,
    title: string,
    location: string,
    price: int,
    bedrooms: int,
    bathrooms: int,
    area: int,
    kind: PropertyType,
    status: Status,
    images: seq<string>,
    description: string,
    amenities: seq<string>,
    agent: Agent,
    coordinates: Coordinates)

  /** The string the source uses for each category. */
  function TypeName(t: PropertyType): string {
    match t
    case Apartment => "Apartment"
    case Villa => "Villa"
    case Penthouse => "Penthouse"
    case Commercial => "Commercial"
    case OffPlan => "Off-Plan"
  }

  /** Distinct categories have distinct names, so comparing names compares categories. */
  lemma TypeNameInjective(s: PropertyType, t: PropertyType)
    ensures TypeName(s) == TypeName(t) <==> s == t
  {
  }
}

=== FILE: optional.dfy ===
/** A value that may be missing: JavaScript's `undefined`, `null` or `NaN`
    where the source lets one flow through instead of throwing. */
module Optional {

  datatype Option<+T> = None | Some(value: T)

}

=== FILE: seqs.dfy ===
/** The array operations the source leans on (`filter`, `slice(0, n)`,
    `includes`), as functions over sequences, with the facts the other
    modules need about them. */
module Seqs {

  /** `Array.prototype.filter`: the elements satisfying `p`, in their order. */
  function Filter<T>(s: seq<T>, p: T -> bool): (r: seq<T>)
    ensures |r| <= |s|
    ensures forall i :: 0 <= i < |r| ==> r[i] in s && p(r[i])
    ensures forall i :: 0 <= i < |s| && p(s[i]) ==> s[i] in r
  {
    if s == [] then []
    else if p(s[0]) then [s[0]] + Filter(s[1..], p)
    else Filter(s[1..], p)
  }

  /** `slice(0, n)`: the first `n` elements, or all of them when there are fewer. */
  function Take<T>(s: seq<T>, n: nat): (r: seq<T>)
    ensures |r| == if |s| < n then |s| else n
    ensures r == s[..|r|]
  {
    if |s| <= n then s else s[..n]
  }

  ghost predicate NoDuplicates<T>(s: seq<T>) {
    forall i, j :: 0 <= i < j < |s| ==> s[i] != s[j]
  }

  /** Filtering keeps every element that passes as often as the input holds
      it, and drops every other one. */
  lemma {:induction false} FilterCount<T>(s: seq<T>, p: T -> bool, x: T)
    ensures multiset(Filter(s, p))[x] == if p(x) then multiset(s)[x] else 0
  {
    if s != [] {
      FilterCount(s[1..], p, x);
      assert s == [s[0]] + s[1..];
    }
  }

  /** Filtering distributes over concatenation: it keeps the relative order. */
  lemma {:induction false} FilterAppend<T>(a: seq<T>, b: seq<T>, p: T -> bool)
    ensures Filter(a + b, p) == Filter(a, p) + Filter(b, p)
  {
    if a != [] {
      assert (a + b)[0] == a[0];
      assert (a + b)[1..] == a[1..] + b;
      FilterAppend(a[1..], b, p);
      if p(a[0]) {
        assert Filter(a, p) == [a[0]] + Filter(a[1..], p);
      }
    } else {
      assert a + b == b;
    }
  }

  /** A filter that every element passes changes nothing. */
  lemma {:induction false} FilterAll<T>(s: seq<T>, p: T -> bool)
    requires forall i :: 0 <= i < |s| ==> p(s[i])
    ensures Filter(s, p) == s
  {
    if s != [] {
      FilterAll(s[1..], p);
    }
  }

  /** A filter that no element passes keeps nothing. */
  lemma {:induction false} FilterNone<T>(s: seq<T>, p: T -> bool)
    requires forall i :: 0 <= i < |s| ==> !p(s[i])
    ensures Filter(s, p) == []
  {
    if s != [] {
      FilterNone(s[1..], p);
    }
  }

  /** Filtering a sequence without duplicates yields one without duplicates. */
  lemma {:induction false} FilterNoDuplicates<T>(s: seq<T>, p: T -> bool)
    requires NoDuplicates(s)
    ensures NoDuplicates(Filter(s, p))
  {
    if s != [] {
      FilterNoDuplicates(s[1..], p);
      var r := Filter(s, p);
      if p(s[0]) {
        assert s[0] !in s[1..];
        assert forall j :: 0 < j < |r| ==> r[j] in Filter(s[1..], p);
      }
    }
  }
}

=== FILE: session.dfy ===
/** The top-level session controller: the current page, the selected
    listing, the favourites list and the application modal. */
module Session {
  import opened Optional
  import opened Seqs
  import opened Listing
  import Catalog

  function Other(id: string): string -> bool {
    (x: string) => x != id
  }

  /** `prev.includes(id) ? prev.filter(x => x !== id) : [...prev, id]`. */
  function Toggle(favorites: seq<string>, id: string): (r: seq<string>)
    ensures id in r <==> id !in favorites
    ensures forall x :: x != id ==> (x in r <==> x in favorites)
  {
    if id in favorites then Filter(favorites, Other(id)) else favorites + [id]
  }

  /** Toggling a present identifier removes every occurrence of it and keeps
      every other identifier as often as before. */
  lemma ToggleRemovesEveryOccurrence(favorites: seq<string>, id: string, x: string)
    requires id in favorites
    ensures multiset(Toggle(favorites, id))[x] == if x == id then 0 else multiset(favorites)[x]
  {
    FilterCount(favorites, Other(id), x);
  }

  /** ... and keeps the others in their order: removal commutes with any
      split of the list. */
  lemma ToggleKeepsOrder(favorites: seq<string>, id: string, a: seq<string>, b: seq<string>)
    requires id in favorites && favorites == a + b
    ensures Toggle(favorites, id) == Filter(a, Other(id)) + Filter(b, Other(id))
  {
    FilterAppend(a, b, Other(id));
  }

  /** Toggling an absent identifier twice restores the list exactly. */
  lemma ToggleTwiceRestoresAbsent(favorites: seq<string>, id: string)
    requires id !in favorites
    ensures Toggle(Toggle(favorites, id), id) == favorites
  {
    var once := favorites + [id];
    FilterAppend(favorites, [id], Other(id));
    FilterAll(favorites, Other(id));
  }

  /** Toggling any identifier twice restores the set of favourites (though a
      present identifier comes back at the end of the list). */
  lemma ToggleTwiceRestoresMembership(favorites: seq<string>, id: string, x: string)
    ensures x in Toggle(Toggle(favorites, id), id) <==> x in favorites
  {
    var once := Toggle(favorites, id);
    if x == id {
      assert x in once <==> x !in favorites;
    } else {
      assert x in once <==> x in favorites;
    }
  }

  /** Favourites built by toggling never hold an identifier twice. */
  lemma ToggleKeepsNoDuplicates(favorites: seq<string>, id: string)
    requires NoDuplicates(favorites)
    ensures NoDuplicates(Toggle(favorites, id))
  {
    if id in favorites {
      FilterNoDuplicates(favorites, Other(id));
    }
  }

  /** What `selectedProperty` holds at run time. `viewPropertyDetails` is
      declared to take a listing, but the cards of the home page and of the
      similar-listings strip hand it the listing's id string. */
  datatype Selection = Chosen(property: Property) | RawId(id: string)

  /** JavaScript truthiness of the selection state: `null` and the empty
      string are falsy, any object and any other string are truthy. */
  predicate Truthy(selection: Option<Selection>) {
    selection.Some? && (selection.value.Chosen? || selection.value.id != "")
  }

  /** A card's click: `property.id && onViewDetails(property.id)`, so the
      handler receives the id, and only a non-empty one. */
  function CardClick(p: Property): (r: Option<string>)
    ensures r.Some? <==> p.id != ""
    ensures r.Some? ==> r.value == p.id
  {
    if p.id != "" then Some(p.id) else None
  }

  /** What the main area renders. `Blank` is the detail page's fallback
      render; `Crashed` is the detail page throwing while it renders (reading
      `images` of a string gives `undefined`, and indexing that throws). */
  datatype View =
    | HomeView
    | PropertiesView(properties: seq<Property>, favorites: seq<string>)
    | DetailView(property: Property, favorites: seq<string>)
    | AboutView
    | ContactView
    | Blank
    | Crashed

  class App {
    var currentPage: Page
    var selectedProperty: Option<Selection>
    var favorites: seq<string>
    var allProperties: seq<Property>
    var isApplyModalOpen: bool

    /** Something is selected only while the detail page is current, and no
        favourite is listed twice. */
    ghost predicate Valid()
      reads this
    {
      (selectedProperty.Some? ==> currentPage == PropertyDetail) && NoDuplicates(favorites)
    }

    /** The selection, if any, is a listing and not a bare id. */
    ghost predicate Resolved()
      reads this
    {
      selectedProperty.Some? ==> selectedProperty.value.Chosen?
    }

    /** The session's start: the home page, nothing selected, no favourites,
        the modal closed, and the catalogue given. */
    constructor (catalog: seq<Property>)
      ensures Valid() && Resolved()
      ensures currentPage == Home && selectedProperty.None? && favorites == []
      ensures allProperties == catalog && !isApplyModalOpen
    {
      currentPage := Home;
      selectedProperty := None;
      favorites := [];
      allProperties := catalog;
      isApplyModalOpen := false;
    }

    method ToggleFavorite(id: string)
      requires Valid()
      modifies this`favorites
      ensures Valid()
      ensures favorites == Toggle(old(favorites), id)
    {
      ToggleKeepsNoDuplicates(favorites, id);
      favorites := Toggle(favorites, id);
    }

    /** `navigateTo(page)`: show the page and drop the selection. */
    method NavigateTo(page: Page)
      requires Valid()
      modifies this`currentPage, this`selectedProperty
      ensures Valid() && Resolved()
      ensures currentPage == page && selectedProperty.None?
    {
      currentPage := page;
      selectedProperty := None;
    }

    /** `viewPropertyDetails(x)`: store whatever it is handed as the selection
        and show the detail page. */
    method ViewPropertyDetails(selection: Selection)
      requires Valid()
      modifies this`currentPage, this`selectedProperty
      ensures Valid()
      ensures currentPage == PropertyDetail && selectedProperty == Some(selection)
    {
      selectedProperty := Some(selection);
      currentPage := PropertyDetail;
    }

    /** A card on the home page's featured strip or in a detail page's
        similar-listings strip: its id goes straight to `viewPropertyDetails`. */
    method ClickIdCard(p: Property)
      requires Valid()
      modifies this`currentPage, this`selectedProperty
      ensures Valid()
      ensures p.id != "" ==> currentPage == PropertyDetail && selectedProperty == Some(RawId(p.id))
      ensures p.id == "" ==> currentPage == old(currentPage) && selectedProperty == old(selectedProperty)
    {
      var click := CardClick(p);
      if click.Some? {
        ViewPropertyDetails(RawId(click.value));
      }
    }

    /** Opening a listing by id, as the catalogue page's cards do: the id is
        looked up in the catalogue and only a listing found is selected. */
    method OpenListing(id: string)
      requires Valid()
      modifies this`currentPage, this`selectedProperty
      ensures Valid()
      ensures old(Resolved()) ==> Resolved()
      ensures Catalog.FindById(allProperties, id).Some? ==>
        currentPage == PropertyDetail && selectedProperty == Some(Chosen(Catalog.FindById(allProperties, id).value)) &&
        selectedProperty.value.property.id == id && selectedProperty.value.property in allProperties
      ensures Catalog.FindById(allProperties, id).None? ==>
        currentPage == old(currentPage) && selectedProperty == old(selectedProperty)
    {
      var found := Catalog.FindById(allProperties, id);
      if found.Some? {
        ViewPropertyDetails(Chosen(found.value));
      }
    }

    /** A card on the catalogue page: its id is resolved to the listing first. */
    method ClickCatalogCard(p: Property)
      requires Valid()
      modifies this`currentPage, this`selectedProperty
      ensures Valid()
      ensures old(Resolved()) ==> Resolved()
      ensures p.id != "" && p in allProperties ==>
        currentPage == PropertyDetail && selectedProperty.Some? && selectedProperty.value == Chosen(Catalog.FindById(allProperties, p.id).value)
      ensures p.id == "" || Catalog.FindById(allProperties, p.id).None? ==>
        currentPage == old(currentPage) && selectedProperty == old(selectedProperty)
    {
      var click := CardClick(p);
      if click.Some? {
        OpenListing(click.value);
      }
    }

    method OpenApplyModal()
      modifies this`isApplyModalOpen
      ensures isApplyModalOpen
    {
      isApplyModalOpen := true;
    }

    method CloseApplyModal()
      modifies this`isApplyModalOpen
      ensures !isApplyModalOpen
    {
      isApplyModalOpen := false;
    }

    /** `renderPage()`: the view for the current page. The detail page with a
        falsy selection renders nothing and navigates to the catalogue
        instead; with a bare id it throws. */
    method RenderPage() returns (view: View)
      requires Valid()
      modifies this`currentPage, this`selectedProperty
      ensures Valid()
      ensures currentPage == PropertyDetail ==> selectedProperty.Some?
      ensures old(Resolved()) ==> Resolved() && view != Crashed
      ensures view == Crashed <==> old(currentPage) == PropertyDetail && Truthy(old(selectedProperty)) && old(selectedProperty).value.RawId?
      ensures old(currentPage) == PropertyDetail && !Truthy(old(selectedProperty)) ==>
        view == Blank && currentPage == Properties && selectedProperty.None?
      ensures !(old(currentPage) == PropertyDetail && !Truthy(old(selectedProperty))) ==>
        currentPage == old(currentPage) && selectedProperty == old(selectedProperty)
      ensures currentPage == PropertyDetail && selectedProperty.value.Chosen? ==>
        view == DetailView(selectedProperty.value.property, favorites)
      ensures currentPage != PropertyDetail ==>
        view == match currentPage
          case Home => HomeView
          case Properties => if old(currentPage) == Properties then PropertiesView(allProperties, favorites) else Blank
          case PropertyDetail => Blank
          case About => AboutView
          case Contact => ContactView
    {
      match currentPage
      case Home =>
        view := HomeView;
      case Properties =>
        view := PropertiesView(allProperties, favorites);
      case PropertyDetail =>
        if Truthy(selectedProperty) {
          match selectedProperty.value
          case Chosen(p) =>
            view := DetailView(p, favorites);
          case RawId(_) =>
            view := Crashed;
        } else {
          NavigateTo(Properties);
          view := Blank;
        }
      case About =>
        view := AboutView;
      case Contact =>
        view := ContactView;
    }
  }

  /** A click on any featured card of the home page (whose handler is
      `viewPropertyDetails`) crashes the detail page it opens. */
  method FeaturedCardClickCrashes(catalog: seq<Property>, card: Property) returns (view: View)
    requires card.id != ""
    ensures view == Crashed
  {
    var app := new App(catalog);
    app.ClickIdCard(card);
    view := app.RenderPage();
  }

  /** From a listing opened on the catalogue page, a click on a similar
      listing's card (whose handler is also `viewPropertyDetails`) crashes the
      detail page. */
  method SimilarCardClickCrashes(catalog: seq<Property>, viewed: Property, similar: Property)
    returns (before: View, after: View)
    requires viewed in catalog && viewed.id != "" && similar.id != ""
    ensures before.DetailView? && before.property.id == viewed.id
    ensures after == Crashed
  {
    var app := new App(catalog);
    app.NavigateTo(Properties);
    app.ClickCatalogCard(viewed);
    before := app.RenderPage();
    app.ClickIdCard(similar);
    after := app.RenderPage();
  }

  /** Opening a card's listing through the id lookup shows that listing's
      detail page, from the home page as from a detail page. */
  method ResolvedCardClickShowsListing(catalog: seq<Property>, viewed: Property, card: Property)
    returns (before: View, after: View)
    requires viewed in catalog && viewed.id != ""
    requires card in catalog && card.id != ""
    ensures before.DetailView? && before.property.id == viewed.id
    ensures after.DetailView? && after.property.id == card.id && after.property in catalog
  {
    var app := new App(catalog);
    app.OpenListing(viewed.id);
    before := app.RenderPage();
    app.OpenListing(card.id);
    after := app.RenderPage();
  }
}

=== FILE: text.dfy ===
/** The string operations the catalog query relies on: `toLowerCase`,
    `includes` and `parseInt`, over strings as sequences of characters. */
module Text {
  import opened Optional

  /** `toLowerCase` on one character, for the ASCII letters. */
  function LowerChar(c: char): (r: char)
    ensures 'A' <= c <= 'Z' ==> 'a' <= r <= 'z'
    ensures !('A' <= c <= 'Z') ==> r == c
  {
    if 'A' <= c <= 'Z' then (c as int - 'A' as int + 'a' as int) as char else c
  }

  /** `String.prototype.toLowerCase`, restricted to ASCII letters. */
  function ToLower(s: string): (r: string)
    ensures |r| == |s|
    ensures forall i :: 0 <= i < |s| ==> r[i] == LowerChar(s[i])
  {
    seq(|s|, i requires 0 <= i < |s| => LowerChar(s[i]))
  }

  /** Lower-casing twice is lower-casing once, so a term the user already
      typed in lower case searches exactly like its mixed-case form. */
  lemma ToLowerIdempotent(s: string)
    ensures ToLower(ToLower(s)) == ToLower(s)
  {
  }

  /** `needle` sits in `hay` starting at index `i`. */
  predicate OccursAt(hay: string, needle: string, i: int) {
    0 <= i && i + |needle| <= |hay| && hay[i..i + |needle|] == needle
  }

  /** `String.prototype.includes`: whether `needle` is a substring of `hay`. */
  function Contains(hay: string, needle: string): (r: bool)
    ensures r <==> exists i :: OccursAt(hay, needle, i)
    decreases |hay|
  {
    if |needle| <= |hay| && hay[..|needle|] == needle then
      assert OccursAt(hay, needle, 0);
      true
    else if hay == [] then
      false
    else
      var r := Contains(hay[1..], needle);
      assert forall i :: OccursAt(hay[1..], needle, i) ==> OccursAt(hay, needle, i + 1);
      assert forall j :: OccursAt(hay, needle, j) ==> j > 0 && OccursAt(hay[1..], needle, j - 1);
      r
  }

  /** The empty string is a substring of every string. */
  lemma ContainsEmpty(hay: string)
    ensures Contains(hay, "")
  {
    assert OccursAt(hay, "", 0);
  }

  predicate IsDigit(c: char) {
    '0' <= c <= '9'
  }

  predicate AllDigits(s: string) {
    forall i :: 0 <= i < |s| ==> IsDigit(s[i])
  }

  function DigitValue(c: char): (r: nat)
    requires IsDigit(c)
    ensures r < 10
  {
    c as int - '0' as int
  }

  /** The longest prefix of `s` made of decimal digits. */
  function LeadingDigits(s: string): (r: string)
    ensures |r| <= |s| && r == s[..|r|]
    ensures AllDigits(r)
    ensures |r| < |s| ==> !IsDigit(s[|r|])
  {
    if s != [] && IsDigit(s[0]) then [s[0]] + LeadingDigits(s[1..]) else []
  }

  /** The value of a string of decimal digits, most significant first. */
  function DigitsValue(ds: string): nat
    requires AllDigits(ds)
  {
    if ds == [] then 0 else DigitsValue(ds[..|ds| - 1]) * 10 + DigitValue(ds[|ds| - 1])
  }

  /** `parseInt(s)` in base 10: an optional sign, then the longest run of
      digits; `None` is JavaScript's `NaN`, returned when no digit follows. */
  function ParseInt(s: string): (r: Option<int>)
    ensures r.Some? <==> |s| > 0 && (IsDigit(s[0]) || ((s[0] == '-' || s[0] == '+') && |s| > 1 && IsDigit(s[1])))
    ensures r.Some? && s[0] == '-' ==> r.value <= 0
    ensures r.Some? && s[0] != '-' ==> r.value >= 0
  {
    var negative := |s| > 0 && s[0] == '-';
    var body := if |s| > 0 && (s[0] == '-' || s[0] == '+') then s[1..] else s;
    var ds := LeadingDigits(body);
    if ds == [] then None
    else
      var magnitude: int := DigitsValue(ds);
      Some(if negative then -magnitude else magnitude)
  }

  /** The decimal numeral of `n`, without leading zeros. */
  function Decimal(n: nat): (r: string)
    ensures r != [] && AllDigits(r)
  {
    if n < 10 then [('0' as int + n) as char] else Decimal(n / 10) + [('0' as int + n % 10) as char]
  }

  lemma {:induction false} DecimalValue(n: nat)
    ensures DigitsValue(Decimal(n)) == n
  {
    if n >= 10 {
      DecimalValue(n / 10);
      var d := Decimal(n);
      assert d[..|d| - 1] == Decimal(n / 10);
    }
  }

  /** Leading digits stop where the digits stop. */
  lemma {:induction false} LeadingDigitsOfAppend(ds: string, rest: string)
    requires AllDigits(ds)
    requires rest == [] || !IsDigit(rest[0])
    ensures LeadingDigits(ds + rest) == ds
  {
    if ds != [] {
      assert (ds + rest)[1..] == ds[1..] + rest;
      LeadingDigitsOfAppend(ds[1..], rest);
    } else {
      assert ds + rest == rest;
    }
  }

  /** Round trip: `parseInt` reads back a numeral, whatever non-digit text
      follows it (so the option "5+" reads as 5). */
  lemma ParseIntOfDecimal(n: nat, rest: string)
    requires rest == [] || !IsDigit(rest[0])
    ensures ParseInt(Decimal(n) + rest) == Some(n)
  {
    var s := Decimal(n) + rest;
    assert s[0] == Decimal(n)[0];
    LeadingDigitsOfAppend(Decimal(n), rest);
    DecimalValue(n);
  }
}
